=== FILE: README.md ===
# uPIDE core logic in Dafny

uPIDE is a small desktop IDE for MicroPython boards. Its main window sends commands to the board and reacts when they complete. Each code editor tab tracks whether its text has changed, and marks error lines. This project models the logic behind both and proves properties about it:

- **Tracebacks.** When the board reports an error, the resolver reads the MicroPython traceback. It finds the last `File "...", line N` frame, decides which editor to mark and what to show in the console. Any text it cannot parse is printed as it came (`traceback.dfy`).
- **Backup.** Every file on the board is fetched with GET_FILE and written into a zip archive under its name without the leading "/". The first failure ends the walk (`backup.dfy`).
- **Restore.** The archive's entries are put back one after another. Directory entries are skipped. Before each file is uploaded with PUT_FILE, its missing ancestor directories are created with `mkpath`. The restore always ends by reloading the file view with LISTDIR (`restore.dfy`, using the path helpers in `paths.dfy`).
- **Window session logic.** The UI is greyed out while the board is busy and a progress bar is shown. Running code can be stopped: a stop request arms a one-second timer that forces the board link down unless the run reports completion first. A completed save updates the file view and the editors, then runs its callback (`session.dfy`).
- **Editor tab.** This covers the run/stop/save overlay buttons and the signals they are allowed to emit. It also covers the low-rate modification check, the error mark and its tooltip, Tab-key indentation and the width of the line-number gutter (`codeeditor.dfy`).
- **Multi-line strings.** The syntax highlighter scans each line for triple-quote strings. The state carried from block to block says whether a line ends inside such a string (`highlighter.dfy`).

`base.dfy` defines `Option` and bytes. `pystr.dfy` gives the Python string operations the code relies on: `strip`, `split`, `join`, `replace`, `lower` and `int()`.

Widgets, timers, the board link, the file view and the zip file are not modelled. They become inputs:

- answers of the file view (`exists`, `get_next_file`, node sizes);
- success or failure of board commands;
- archive contents, and writes that raise;
- discrete timer events.

## Model

| member | source | states |
|---|---|---|
| Traceback.Lines | src/upide.py:684 | the lines are the message with every "\r" removed, cut at every "\n": joining them back with "\n" gives that text, no line holds a "\n" or "\r", and there is always at least one line |
| Traceback.FrameEnd | src/upide.py:690-694 | scanning from line 1 stops at the first line whose stripped, lower-cased form does not start with "file", or at the end of the text; every line before it is a `File` line |
| Traceback.Locate | src/upide.py:690-712 | a location exists exactly when the `File` run ends before the last line and the line before the first non-`File` line has at least two comma fields, the second holding an integer; it then names that line, its comma fields, that integer as line number and the file token of the first field |
| Traceback.LocationIsLastFrame | src/upide.py:693-699 | the located line is the last of the `File` run, the next line is not a `File` line, and the line number is `int` of the second space-separated word of the second comma field |
| Traceback.FileTokenAbsolute | src/upide.py:706-712 | the file name taken from a location line is either `<stdin>` or starts with "/" |
| Traceback.ResolveName | src/upide.py:714 | `<stdin>` is replaced by the name the caller gives; any other name is kept |
| Traceback.FrameHeadName | src/upide.py:708-712 | the quoted name of a `File "<name>"` head comes back without its quotes, with "/" prefixed unless it is already absolute |
| Traceback.OnError | src/upide.py:679-733 | when the text does not parse, the only effect is the whole "\r"-free text printed in red; otherwise the editors are asked to mark the resolved file at the parsed line with lines i.. (line i reworded); a fetch happens exactly when no editor took the mark and the file view knows a size above 0, and it carries that size, the line and the message; the console shows, in dark red, the file's last path part with the remaining comma fields and then the message, or, when `<stdin>` has no name to stand for, everything in red with line i reworded |
| Traceback.ResolvesLastFrame | src/upide.py:679-719 | round trip: a banner, frames printed the way MicroPython prints them and message lines resolve to the last frame's file (made absolute, or the caller's name for `<stdin>`), its line number and the message with "KeyboardInterrupt:" reworded on its first line only |
| Traceback.PrintedLocates | src/upide.py:684-712 | a printed traceback splits back into its lines and locates the last frame: its position, its line number and its file made absolute |
| Traceback.Unparsed | src/upide.py:731-733 | any parse failure prints the whole "\r"-free text in red and makes no mark and no fetch |
| Traceback.UnnamedStdinPrintsRed | src/upide.py:714-733 | a traceback from `<stdin>` with no script name prints the banner, the frames and the reworded message in red |
| Traceback.NoCommaFallsBack | src/upide.py:696-699 | a location line with fewer than two comma fields makes parsing fail |
| Traceback.BannerThenMessageFallsBack | src/upide.py:690-733 | a banner without a comma directly followed by the message (no `File` line) is printed verbatim |
| Traceback.OnlyFramesFallsBack | src/upide.py:690-733 | a text whose lines after the banner are all `File` lines runs past the end and is printed verbatim |
| Traceback.NonIntegerFallsBack | src/upide.py:696-733 | a line-number field that is not an integer makes the whole text print verbatim |
| Traceback.ImportErrorExample | src/upide.py:688-690 | the documented `ImportError` traceback from `<stdin>` marks line 4 of the caller's script with the `ImportError` message |
| Traceback.LinesOfJoin | src/upide.py:684 | splitting "\n"-joined single lines gives the same lines back |
| Traceback.LineFieldParses | src/upide.py:699 | the field " line N" parses back to N |
| Paths.Unrooted | src/upide.py:219-221 | exactly one leading "/" is removed, and only if there is one |
| Paths.UnrootedAbsolute | src/upide.py:219-221 | an absolute name loses exactly its first "/" |
| Paths.Ancestors | src/upide.py:333-337 | there is one ancestor per "/" in the name after its leading "/" is removed, and the i-th, followed by "/" and the components after the (i+1)-th, rebuilds the absolute form of the name; so the i-th is "/" followed by the first i+1 components |
| Paths.AncestorsDeepen | src/upide.py:335-337 | each ancestor plus "/" is a prefix of the next, so they are visited shallowest first |
| Paths.AncestorsDistinct | src/upide.py:335-337 | no ancestor is visited twice |
| Paths.NoSlashNoAncestors | src/upide.py:333-334 | a name with no "/" after the leading one has no ancestors |
| Backup.ZipName | src/upide.py:255-256 | the archive name ends in ".zip" in any case; ".zip" is appended only when missing |
| Backup.ZipNameIdempotent | src/upide.py:255-256 | naming an already named archive changes nothing |
| Backup.Extent | src/upide.py:233-237 | the walk covers the files up to the first falsy answer of the next-file enumeration |
| Backup.Entries | src/upide.py:218-225 | each archive member is the board's content of a file, under the file name with one leading "/" removed |
| Backup.Run | src/upide.py:211-270 | success exactly when every enumerated file has a node, arrives from the board and is written; then the archive holds them all in order and one GET_FILE with the node size went out per file; otherwise the first failing file gives the message ("No node", "Board com failed" or the write exception), and the archive and requests stop there; an archive that cannot be opened fails with its exception text before any request |
| Backup.RunAsWritten | src/upide.py:200-209 | as written, a backup into an archive that cannot be opened raises AttributeError after the status exactly when no archive was opened earlier in the session; the outcome is otherwise that of the corrected backup |
| Backup.Status | src/upide.py:200-202 | the status reads "Backup successful" exactly on success and "Backup failed: " followed by the message otherwise |
| Restore.NextIndex | src/upide.py:293-304 | the first position at or after the start that holds a file; none only when every later entry ends with "/" |
| Restore.IndexOf | src/upide.py:290 | `files.index(f)` is the first position holding f |
| Restore.NextFile | src/upide.py:284-304 | the cursor as written never answers a directory entry; it raises ValueError exactly for a non-empty name not in the archive; with no name it answers the first file, and with a name in the archive the first file after its first occurrence |
| Restore.NextAfter | src/upide.py:284-304 | the positional cursor only moves forward |
| Restore.NextFileAgrees | src/upide.py:284-304 | for a name that occurs once, both cursors answer the same next file, or both answer none |
| Restore.NextFileCycles | src/upide.py:290 | with a duplicated name the cursor as written goes back to an earlier entry |
| Restore.EmptyNameRestarts | src/upide.py:284-304 | after a member named "", which is falsy, the cursor as written answers the first file of the archive, at or before that member |
| Restore.EmptyNameCycles | src/upide.py:284-320 | with the archive "a", "" the cursor as written answers "" after "a" and "a" after "", so the chain never ends |
| Restore.MakeDirsSpec | src/upide.py:333-344 | over distinct directories: success exactly when no missing directory fails, and then exactly the missing ones are created, shallowest first, and become known |
| Restore.MakeDirsStops | src/upide.py:337-342 | when the walk fails only its last mkdir failed and no deeper directory is tried; when it succeeds none of its mkdirs failed |
| Restore.MakeDirsNew | src/upide.py:335-340 | every mkdir names a directory on the walk that the file view did not know |
| Restore.MakeDirsFresh | src/upide.py:336-340 | no directory is created twice; on success each created one is known |
| Restore.MakePathSpec | src/upide.py:327-344 | `mkpath` succeeds exactly when every missing ancestor can be created, and then creates exactly those ancestors, shallowest first |
| Restore.MakePathFlat | src/upide.py:327-344 | a name without a directory part creates nothing and succeeds |
| Restore.MakePathExample | src/upide.py:327-344 | restoring "a/b/c.py" onto an empty board creates "/a" and then "/a/b" |
| Restore.DoneSpec | src/upide.py:272-282 | `restore_done` always ends with exactly one LISTDIR and sends nothing more |
| Restore.RestoreFromSpec | src/upide.py:314-364 | a chain ends with exactly one LISTDIR and every PUT_FILE carries the archive's bytes for its name; it succeeds exactly when every file entry from its position on is restorable (its missing ancestors can be made, it can be read and its upload succeeds); on success it has uploaded exactly those entries, in order; on failure a prefix of them |
| Restore.RestoreOk | src/upide.py:314-364 | a chain succeeds exactly when every remaining file entry is restorable from the directories known when it starts |
| Restore.RestoreMakesFresh | src/upide.py:327-364 | no directory is created twice in one restore, and none the file view already knew |
| Restore.RunSpec | src/upide.py:410-432 | a restore ends with exactly one LISTDIR and every PUT_FILE carries the archive's bytes; an archive that cannot be opened sends only that listing; otherwise it succeeds exactly when every file entry is restorable, and then every file entry was uploaded in archive order; on failure a prefix of them was |
| Restore.RunEndsWithListing | src/upide.py:272-282 | whatever the archive holds and whether it opens, the corrected restore ends with exactly one LISTDIR |
| Restore.EmptyNameEnds | src/upide.py:284-320 | the corrected restore of the archive "a", "" uploads "a" then "" and ends with success |
| Restore.RunAsWritten | src/upide.py:272-282 | as written, a restore from an archive that cannot be opened raises AttributeError exactly when no archive was opened earlier in the session, and then sends nothing; otherwise it is the corrected restore |
| Restore.ReloadsIff | src/upide.py:272-282 | as written, on an archive with no name twice and "" at most as its first file entry, the file view is reloaded exactly when the archive opens or one was opened earlier in the session |
| Restore.AcyclicCursorAgrees | src/upide.py:284-320 | on an archive with no name twice and "" at most as its first file entry, the cursor as written, given any restored name but "", answers what the positional cursor answers |
| Restore.CyclingArchives | src/upide.py:284-320 | the archives "a", "b", "a" and "a", "" fall outside that condition |
| Session.ProgressAsWritten | src/upide.py:735-746 | the bar is hidden exactly for False and the call raises exactly for values above 100 |
| Session.ProgressTrueIsOnePercent | src/upide.py:735-746 | `progress(True)` shows a percentage bar at 1% |
| Session.ProgressOf | src/upide.py:735-746 | hidden exactly for False; the busy bar exactly for True, None or a negative value; a percentage bar only for a value in 0..100, which it shows; raising exactly above 100, naming the value |
| Session.ProgressAgrees | src/upide.py:735-746 | apart from True, the corrected bar is the one the code shows |
| Session.ProgressErrorNamesValue | src/upide.py:743 | the text after "PROEX " parses back to the offending value |
| Session.BoardRequest | src/upide.py:61-78 | while busy the console is cleared, run buttons hidden, the busy bar shown and the file view disabled; afterwards buttons return to run mode, the bar hides and the file view is enabled |
| Session.BoardRequestAsWritten | src/upide.py:61-78 | as written, a busy request clears the console, hides the editors' run buttons, disables the file view and shows a percentage bar at 1%; an idle one gives the UI back exactly as the corrected gate does |
| Session.BoardRequestShowsOnePercent | src/upide.py:72-75 | starting a board command shows a 1% bar instead of the busy bar |
| Session.BoardRequestAgrees | src/upide.py:61-78 | the two gates differ only in the bar shown while busy |
| Session.Step | src/upide.py:121-170 | a stop request arms the 1000 ms timer after hiding the buttons and before the graceful stop; force-stop happens exactly when an armed timer fires; a cancel happens exactly when the run ends with a timer armed; after run-done no timer is armed and the buttons are in run mode |
| Session.ForceAtMostPerStop | src/upide.py:152-170 | over any sequence of events, force-stops never outnumber stop requests |
| Session.Escalation | src/upide.py:128-170 | after a stop and without another one, force-stop happens exactly once if the timer fires before the run is done, and never otherwise |
| Session.StopThenDone | src/upide.py:128-168 | stop followed by run-done cancels the timer, and a late timer event forces nothing |
| Session.SaveDone | src/upide.py:80-111 | the UI is given back either way; a failure only reports "Saving aborted with error" and keeps the pending save; a success reports "Saved <name>" and drops it |
| Session.SaveDoneUpdates | src/upide.py:84-109 | after a success the file view is told the name and size once (added if new, updated otherwise); an editor is opened or updated exactly when the file is for editing; the callback, if any, comes last |
| CodeEditor.SetButtonMode | src/editor.py:300-315 | run mode shows run and shows save iff the text differs from the saved code; stop mode shows run and hides save; disabled hides both |
| CodeEditor.New | src/editor.py:211-260 | a new editor is valid, in run mode, with save hidden and no error |
| CodeEditor.Edit | src/editor.py:268-272 | an edit schedules the check and changes neither the flag nor the save button |
| CodeEditor.CheckModified | src/editor.py:265-278 | after the check the flag says whether the text differs from the saved code, and it is announced only when it changed |
| CodeEditor.UpdateModifyState | src/editor.py:280-290 | the flag is recorded and announced; save follows it only when the button mode is run; becoming modified clears the error mark |
| CodeEditor.Saved | src/editor.py:417-421 | the text becomes the saved code and the editor is unmodified |
| CodeEditor.OnRun | src/editor.py:333-338 | run is emitted exactly in run mode and stop exactly in stop mode; nothing otherwise |
| CodeEditor.OnSave | src/editor.py:328-331 | save is emitted exactly when the save button shows |
| CodeEditor.SaveOnlyInRunMode | src/editor.py:300-338 | saving is only offered in run mode |
| CodeEditor.ValidPreserved | src/editor.py:265-338 | every editor operation keeps the buttons consistent with the mode and the flag consistent with the text when no check is pending |
| CodeEditor.AlwaysValid | src/editor.py:265-338 | any sequence of editor events keeps that consistency |
| CodeEditor.Highlight | src/editor.py:423-450 | no line clears the mark and the error; an error is recorded exactly for a line with a non-empty message; nothing else changes |
| CodeEditor.ToolTip | src/editor.py:317-326 | with an error, the tooltip shows its message exactly over its line and is hidden elsewhere; without one, the event goes to Qt |
| CodeEditor.ModifiedClearsTip | src/editor.py:274-326 | once a modification is detected no error tooltip remains |
| CodeEditor.TabSpaces | src/editor.py:345-347 | Tab inserts 1 to 4 spaces and lands on the next multiple of 4, with no multiple of 4 in between |
| CodeEditor.DecimalLength | src/editor.py:352-358 | a number has d decimal digits exactly when it lies below 10^d and, from 10 on, at least 10^(d-1) |
| CodeEditor.LineNumberDigits | src/editor.py:352-358 | the digit count is the length of the decimal form of max(1, blockCount) |
| CodeEditor.LineNumberWidth | src/editor.py:352-360 | the gutter is 3 pixels plus one digit width per digit |
| Highlighter.Find | src/editor.py:165-175 | `indexIn` answers -1 or an occurrence at or after the offset |
| Highlighter.FindIsFirst | src/editor.py:165-175 | the occurrence is the first at or after the offset, and -1 means there is none |
| Highlighter.OccursAt | src/editor.py:76-77 | matching the literal delimiter character by character is matching the slice |
| Highlighter.ScanAsWritten | src/editor.py:168-186 | the loop as written terminates, starts its first string where it was entered, and starts every string inside the block |
| Highlighter.MatchAsWritten | src/editor.py:154-192 | a carried string starts the scan at 0; a block without delimiters and no carried string formats nothing and is not inside |
| Highlighter.Scan | src/editor.py:168-186 | the corrected loop formats at least one span, the first starting where the scan was entered, and when it ends inside a string the last span reaches the block's end |
| Highlighter.ScanSpans | src/editor.py:168-186 | the corrected spans lie within the block and each ends before the next begins |
| Highlighter.Match | src/editor.py:154-192 | every span lies within the block; a carried string starts at 0; otherwise the first string starts at a delimiter |
| Highlighter.ScanOpens | src/editor.py:184-186 | every string after the first starts with the delimiter |
| Highlighter.ScanCloses | src/editor.py:174-178 | every string but the last runs through the end of its closing delimiter |
| Highlighter.ScanParity | src/editor.py:168-192 | the scan ends inside a string exactly when the delimiters from the first closing search on are even in number |
| Highlighter.MatchParity | src/editor.py:154-192 | a block ends inside a string exactly when its delimiters, plus one for a carried string, are odd in number |
| Highlighter.NoDelimiterAgrees | src/editor.py:159-182 | without a delimiter both scans agree; a carried string then covers (0, len(text)) and stays open |
| Highlighter.CarriedFirstSpanAgrees | src/editor.py:159-178 | for a carried string the first span as written is the corrected one |
| Highlighter.OvershootExample | src/editor.py:176 | as written, "'''a'''" gets the span (0, 10) on a 7-character block; the corrected scan gives (0, 7) |
| Highlighter.MissedReopenExample | src/editor.py:176-186 | as written, "'''a''''''" misses the string opened at 7 and ends outside; the corrected scan ends inside |
| Highlighter.ReopenAfterCarryExample | src/editor.py:159-176 | as written, "a'''b'''" continuing a string closes it at 1, then takes the opening at 5 as its own closing and ends outside; the corrected scan ends inside |
| Highlighter.HighlightBlock | src/editor.py:147-152 | with the corrected scan, the block state is 0, 1 or 2; it is 1 exactly when the block ends inside triple single quotes; double quotes are scanned exactly when it does not; it is 2 exactly when they leave the block inside |
| Highlighter.HighlightBlockState | src/editor.py:147-152 | the block state is 1 exactly when triple single quotes occur an odd number of times, counting a carried string |
| Highlighter.PlainBlock | src/editor.py:147-152 | a block without triple quotes that continues no string ends in state 0 with nothing formatted |
| PyStr.JoinSplit | src/upide.py:684 | joining the parts of a split with the separator gives the text back |
| PyStr.SplitJoin | src/upide.py:730 | splitting parts joined with a separator they do not contain gives the parts back |
| PyStr.SplitCount | src/upide.py:333 | a split has one more part than the text has separators |
| PyStr.ParseInt | src/upide.py:699 | `int()` accepts exactly an optional sign followed by digits with single underscores between them |
| PyStr.ParseIntDecimal | src/upide.py:699 | the decimal form of a number parses back to it |

## Left out

- Qt widgets, layouts, dialogs, painting, icons and translations. Status texts are the untranslated English strings.
- The regex rule loop of `highlightBlock` (src/editor.py:137-145). It depends on the QRegExp engine. The triple-quote search is modelled as a plain substring search.
- Highlighter spans reaching past the block's end are kept as computed. Qt clips them when it applies them, and that clipping is not modelled.
- Triple single quotes inside a triple-double-quoted string, and the other way round, are scanned independently, as the code does.
- Zip and local file I/O. The archive is a sequence of names with contents, and writes or reads that raise are inputs.
- The board link, the file view, the editor collection and the installer. They become inputs: command success or failure, node sizes, `exists`, whether `highlight` found an open editor, and the next-file enumeration as a sequence of answers.
- Real time. Timer expiry and run completion are discrete events that can come in either order.
- Session.Step: a stop request while a timer is still armed replaces it. The earlier QTimer loses its last reference and is taken to be destroyed without firing.
- The startup chain (scan, connect, version, listing), the port-lost dialog, `on_file`, `on_open`, `on_save` of the window and the import/export/example handlers. They are UI sequencing with little to state.
- Python's `str.lower` and `int()` on non-ASCII characters: only ASCII letters are lower-cased, and PyStr.ParseInt accepts only ASCII digits where `int()` (src/upide.py:699) also accepts other Unicode decimal digits. `strip` uses CPython's whitespace set.
- CodeEditor.LineNumberDigits: the code divides the block count as a float (`count /= 10`). The model divides as an integer, which gives the same digit count. The font's digit width is a parameter.
- CodeEditor.Valid: it does not require the save button to match the flag in run mode. An edit that is undone within the 100 ms check while the mode changes leaves save showing for unmodified text.
- Traceback.OnError: the fetch itself (GET_FILE and `on_file`) is not modelled, only the request and its arguments. The line number is passed on as the 1-based number printed in the traceback, with no conversion; for the example that is 4.
- Restore.MakePathSpec: the directories created are absolute directory names ("/a", "/a/b"), as the code builds them.
- Restore.RunSpec: stated for archives with no empty member name. As the first file entry, an empty name ends the restore at once with success, as the code does. After the first, the corrected restore (Restore.Run) uploads it and moves on. The code as written restarts from the first file there and never ends when the uploads succeed (see Findings).
- CodeEditor.OnRun, CodeEditor.OnSave: `isVisible()` (src/editor.py:330, 334) is modelled as the button's own shown flag. In Qt it is also false while the editor's tab or window is hidden, which the model does not track.
- Session.SaveDone: the callback is modelled by the context it is called with. Whatever the callback then does is not modelled.
- Highlighter.Find: positions and lengths count characters (code points). QRegExp and `setFormat` count UTF-16 units while `len(text)` (src/editor.py:182) counts code points, so on a block with characters outside the Basic Multilingual Plane the code mixes the two and the model does not follow it.
- Restore.Run: the corrected restore sends LISTDIR even when the archive cannot be opened. As written, the first failed open of a session raises AttributeError at `if self.zip` (src/upide.py:276). The exception escapes before LISTDIR (src/upide.py:282), so neither the reload nor the re-enabling of the UI that follows it happens; Restore.RunAsWritten models that and no other effect of the exception.
- Restore.RunAsWritten: only the `self.zip` attribute is as written. An archive that opens is restored by the corrected chain, which the code as written follows only on archives with no name twice and "" at most as the first file entry (Restore.AcyclicCursorAgrees). On the others the code as written may never reach LISTDIR (see Findings), so Restore.ReloadsIff is stated for those archives only.
- Backup.Run: the corrected backup reports the open failure and ends. As written, the first failed open of a session raises AttributeError at `if self.zip` (src/upide.py:207) after the status and UI are restored; Backup.RunAsWritten models that and no other effect of the exception.
- Backup.Run: `backup_done` closing the archive and re-enabling the UI are not modelled beyond the outcome and its status text.

## Findings

| source | as written | input that shows it | evidently intended | confidence | as-written member | corrected member |
|---|---|---|---|---|---|---|
| src/upide.py:70-75, 735-746 | `on_board_request(True)` calls `progress(busy)`. True is neither False nor None and is not below 0, so the bar becomes a percentage bar set to 1 | `progress(True)` | the indeterminate busy bar that the comment at lines 72-74 describes | high, not executed | Session.ProgressAsWritten (Session.ProgressTrueIsOnePercent, Session.BoardRequestShowsOnePercent) | Session.ProgressOf (Session.ProgressAgrees, Session.BoardRequest) |
| src/editor.py:176 | a closed string's length is `end - start + add + matchedLength`, `add` characters too long; the next search then starts `add` characters late | `'''a'''` gives the span (0, 10) on 7 characters; `'''a''''''` misses the string opened at 7 and ends outside | length `end + matchedLength - start` | high, not executed | Highlighter.MatchAsWritten (Highlighter.OvershootExample, Highlighter.MissedReopenExample) | Highlighter.Match (Highlighter.MatchParity, Highlighter.ScanCloses) |
| src/editor.py:161-164, 172 | for a carried string `add` is 0 and is never set to the delimiter length afterwards. The next opening delimiter is then found as its own closing one | `a'''b'''` when the previous block ends inside a string ends outside, with spans (0, 4) and (5, 3) | search for the closing delimiter after each later opening one | high, not executed | Highlighter.MatchAsWritten (Highlighter.ReopenAfterCarryExample) | Highlighter.Match (Highlighter.MatchParity, Highlighter.HighlightBlockState) |
| src/upide.py:290 | the cursor finds the file just restored with `files.index(f)`, its first occurrence | an archive listing `a`, `b`, `a`: after `a` comes `b`, after `b` comes `a`, so the restore never ends | continue after the position just restored | medium (zip archives rarely hold duplicate names), not executed | Restore.NextFile (Restore.NextFileCycles) | Restore.NextAfter (Restore.NextFileAgrees, Restore.RestoreFromSpec) |
| src/upide.py:272-282, 419-424 | `self.zip` is assigned only when an archive opens and no constructor sets it; `restore_done` reads it at line 276 before sending LISTDIR at line 282 | the first restore of a session from a file that cannot be opened as a zip: AttributeError escapes before LISTDIR, so neither the reload nor the re-enabling of the UI that follows it happens | initialise `self.zip = None` so the file view is reloaded and the UI enabled | high, not executed | Restore.RunAsWritten (Restore.ReloadsIff) | Restore.Run (Restore.RunSpec, Restore.RunEndsWithListing) |
| src/upide.py:200-209, 262-266 | `backup_done` reads `self.zip` at line 207 though it is unset when the first archive of a session cannot be opened | the first backup of a session into an unwritable path: AttributeError after the status line | initialise `self.zip = None` | high, not executed | Backup.RunAsWritten | Backup.Run |
| src/upide.py:284-320 | the cursor treats the name just restored as "no name" when it is falsy, so after a member named "" it starts again from the first file | the archive "a", "" with both uploads succeeding: "a", "", "a", "", ... and the restore never ends | continue after the position just restored | medium (zip archives rarely hold an empty member name), not executed | Restore.NextFile (Restore.EmptyNameRestarts, Restore.EmptyNameCycles) | Restore.NextAfter (Restore.EmptyNameEnds, Restore.RestoreFromSpec) |

=== FILE: backup.dfy ===
/**
 * The full backup of the board into a zip archive. The file view hands out
 * the board's files one after another; each is fetched from the board with
 * a GET_FILE command and written into the archive under its name without
 * the leading "/". The walk ends when the file view has no next file, or at
 * the first failure, and always finishes through `backup_done`.
 */
module Backup {
  import opened Base
  import opened PyStr
  import opened Paths

  /** An archive member: its name and its bytes. */
  datatype Entry = Entry(name: string, data: Bytes)

  /** A GET_FILE command sent to the board, with the size the file view knows. */
  datatype Request = GetFile(name: string, size: nat)

  /**
   * What the collaborators answer during a backup.
   * - `files`: the successive answers of the file view's next-file
   *   enumeration; an empty name is Python's falsy answer, and running off
   *   the end is `None`.
   * - `nodes`: the file-view node of each file it knows, holding its size.
   * - `board`: the contents the board returns for a file; a file missing
   *   here is a GET_FILE that completes with failure.
   * - `writeErrors`: archive names whose write into the zip raises, with
   *   the exception text.
   */
  datatype BackupEnv = BackupEnv(files: seq<string>, nodes: map<string, nat>,
                                 board: map<string, Bytes>, writeErrors: map<string, string>)

  /** How the backup ended (`backup_done(ok, msg)`), what went into the archive, and what was asked of the board. */
  datatype Outcome = Outcome(ok: bool, message: string, archive: seq<Entry>, requests: seq<Request>)

  /** What backing up one file does. */
  datatype Step = Stored(entry: Entry) | NoNode | ComFailed | WriteFailed(error: string)

  /** The archive file name chosen in the save dialog, with ".zip" appended unless it already ends so (in any case). */
  function ZipName(fname: string): (r: string)
    ensures EndsWith(Lower(r), ".zip")
    ensures r == fname || r == fname + ".zip"
    ensures r == fname <==> EndsWith(Lower(fname), ".zip")
  {
    if EndsWith(Lower(fname), ".zip") then fname
    else
      assert Lower(fname + ".zip")[|fname|..] == ".zip";
      fname + ".zip"
  }

  /** Naming the archive twice changes nothing. */
  lemma ZipNameIdempotent(fname: string)
    ensures ZipName(ZipName(fname)) == ZipName(fname)
  {
  }

  /** The number of files before the first falsy answer of the enumeration. */
  function Extent(files: seq<string>): (n: nat)
    ensures n <= |files|
    ensures forall j :: 0 <= j < n ==> files[j] != ""
    ensures n < |files| ==> files[n] == ""
  {
    if |files| == 0 || files[0] == "" then 0 else 1 + Extent(files[1..])
  }

  function StepOf(env: BackupEnv, f: string): Step {
    if f !in env.nodes then NoNode
    else if f !in env.board then ComFailed
    else if Unrooted(f) in env.writeErrors then WriteFailed(env.writeErrors[Unrooted(f)])
    else Stored(Entry(Unrooted(f), env.board[f]))
  }

  /** The text `backup_done` receives for a failed step. */
  function Reason(s: Step): string
    requires !s.Stored?
  {
    match s
    case NoNode => "No node"
    case ComFailed => "Board com failed"
    case WriteFailed(e) => e
  }

  /** The first `n` files were all stored. */
  predicate AllStored(env: BackupEnv, n: nat) {
    n <= |env.files| && forall j :: 0 <= j < n ==> StepOf(env, env.files[j]).Stored?
  }

  /** The archive after storing the first `n` files. */
  function Entries(env: BackupEnv, n: nat): (r: seq<Entry>)
    requires AllStored(env, n)
    ensures |r| == n
    ensures forall j :: 0 <= j < n ==> r[j] == Entry(Unrooted(env.files[j]), env.board[env.files[j]])
  {
    seq(n, j requires 0 <= j < n => StepOf(env, env.files[j]).entry)
  }

  /** The GET_FILE commands for the first `n` files. */
  function Requests(env: BackupEnv, n: nat): (r: seq<Request>)
    requires n <= |env.files|
    requires forall j :: 0 <= j < n ==> env.files[j] in env.nodes
    ensures |r| == n
  {
    seq(n, j requires 0 <= j < n => GetFile(env.files[j], env.nodes[env.files[j]]))
  }

  lemma EntriesStep(env: BackupEnv, k: nat)
    requires AllStored(env, k + 1)
    ensures Entries(env, k + 1) == Entries(env, k) + [Entry(Unrooted(env.files[k]), env.board[env.files[k]])]
  {
  }

  lemma RequestsStep(env: BackupEnv, k: nat)
    requires k < |env.files|
    requires forall j :: 0 <= j <= k ==> env.files[j] in env.nodes
    ensures Requests(env, k + 1) == Requests(env, k) + [GetFile(env.files[k], env.nodes[env.files[k]])]
  {
  }

  /** The outcome of a backup whose first failing file is the `j`th. */
  predicate FailedAt(env: BackupEnv, j: nat, o: Outcome) {
    && j < Extent(env.files)
    && AllStored(env, j)
    && var s := StepOf(env, env.files[j]);
    && !s.Stored?
    && o.message == Reason(s)
    && o.archive == Entries(env, j)
    && o.requests == Requests(env, j) + (if s.NoNode? then [] else [GetFile(env.files[j], env.nodes[env.files[j]])])
  }

  /**
   * The backup chain: `on_backup` opens the archive (failing with the
   * exception text), then `backup_file` and `on_backup_file` alternate until
   * the enumeration ends or a step fails.
   */
  method Run(env: BackupEnv, openError: Option<string>) returns (o: Outcome)
    ensures openError.Some? ==> o == Outcome(false, openError.value, [], [])
    ensures openError.None? ==> (o.ok <==> AllStored(env, Extent(env.files)))
    ensures o.ok ==> (&& o.message == ""
                      && o.archive == Entries(env, Extent(env.files))
                      && o.requests == Requests(env, Extent(env.files)))
    ensures openError.None? && !o.ok ==> exists j :: FailedAt(env, j, o)
  {
    if openError.Some? {
      return Outcome(false, openError.value, [], []);
    }
    var k := 0;
    var archive: seq<Entry> := [];
    var requests: seq<Request> := [];
    while k < |env.files| && env.files[k] != ""
      invariant k <= Extent(env.files)
      invariant AllStored(env, k)
      invariant archive == Entries(env, k)
      invariant requests == Requests(env, k)
    {
      var f := env.files[k];
      if f !in env.nodes {
        o := Outcome(false, "No node", archive, requests);
        assert FailedAt(env, k, o);
        return;
      }
      requests := requests + [GetFile(f, env.nodes[f])];
      if f !in env.board {
        o := Outcome(false, "Board com failed", archive, requests);
        assert FailedAt(env, k, o);
        return;
      }
      var name := Unrooted(f);
      if name in env.writeErrors {
        o := Outcome(false, env.writeErrors[name], archive, requests);
        assert FailedAt(env, k, o);
        return;
      }
      assert AllStored(env, k + 1);
      EntriesStep(env, k);
      RequestsStep(env, k);
      archive := archive + [Entry(name, env.board[f])];
      k := k + 1;
    }
    o := Outcome(true, "", archive, requests);
  }

  /**
   * The backup chain as written, where `hadArchive` says whether a backup or
   * a restore earlier in the session opened its archive. The window assigns
   * its archive attribute only once an archive has opened, so when this one
   * cannot be opened and none was before, `backup_done` shows the status and
   * enables the UI again, then raises `AttributeError` at `if self.zip`.
   */
  method RunAsWritten(env: BackupEnv, openError: Option<string>, hadArchive: bool) returns (o: Outcome, raised: bool)
    ensures raised <==> openError.Some? && !hadArchive
    ensures openError.Some? ==> o == Outcome(false, openError.value, [], [])
    ensures openError.None? ==> (o.ok <==> AllStored(env, Extent(env.files)))
    ensures o.ok ==> o.archive == Entries(env, Extent(env.files))
  {
    o := Run(env, openError);
    raised := openError.Some? && !hadArchive;
  }

  /** The status line `backup_done` shows. */
  function Status(o: Outcome): (s: string)
    ensures o.ok <==> s == "Backup successful"
    ensures !o.ok ==> StartsWith(s, "Backup failed: ") && s[|"Backup failed: "|..] == o.message
  {
    if o.ok then "Backup successful"
    else
      assert ("Backup failed: " + o.message)[7] != "Backup successful"[7];
      "Backup failed: " + o.message
  }
}

=== FILE: base.dfy ===
/** Small shared vocabulary: an optional value and the byte type of file contents. */
module Base {

  /** Python's `None` or a value. */
  datatype Option<+T> = None | Some(value: T)

  /** One octet of a file stored on the board or in a backup archive. */
  type Byte = b: int | 0 <= b < 256

  type Bytes = seq<Byte>
}

=== FILE: codeeditor.dfy ===
/**
 * The state of one code editor tab: its run/stop and save overlay buttons,
 * whether its text differs from the code last loaded or saved, the error
 * line it marks, and two small computations (tab stops and the width of
 * the line-number gutter).
 */
module CodeEditor {
  import opened Base
  import opened PyStr

  /** `set_button_mode(True)`, `(False)` and `(None)`: run, stop, and no buttons while the board is busy. */
  datatype ButtonMode = RunMode | StopMode | Disabled

  /** An error reported on `line`, with the text shown as its tooltip. */
  datatype ErrorMark = ErrorMark(line: int, msg: string)

  /**
   * One editor.
   * - `text`: what the widget shows; `code`: the code last loaded or saved;
   * - `modified`: the flag the low-rate check last set;
   * - `runVisible`, `saveVisible`: the overlay buttons;
   * - `checkPending`: the 100 ms modification check is scheduled;
   * - `marked`: the line with the red error background, if any;
   * - `error`: the error whose message the tooltip shows.
   */
  datatype Editor = Editor(name: string, text: string, code: string, modified: bool, mode: ButtonMode,
                           runVisible: bool, saveVisible: bool, checkPending: bool,
                           marked: Option<int>, error: Option<ErrorMark>)

  /** What the editor tells the rest of the program. */
  datatype Signal = Run(name: string, code: string) | Stop | Save(name: string, code: string)
                  | Modified(name: string, modified: bool)

  /** `checkModified`: the text differs from the saved code. */
  predicate Differs(e: Editor) {
    e.text != e.code
  }

  /** A column where a tab stop lies. */
  predicate TabStop(col: int) {
    col % 4 == 0
  }

  /**
   * What holds of every editor between events: each button mode shows the
   * buttons it should, and when no check is pending the flag matches the text.
   */
  predicate Valid(e: Editor) {
    && (e.mode == RunMode ==> e.runVisible)
    && (e.mode == StopMode ==> e.runVisible && !e.saveVisible)
    && (e.mode == Disabled ==> !e.runVisible && !e.saveVisible)
    && (!e.checkPending ==> e.modified == Differs(e))
  }

  /** `set_button_mode`: run shows the run button and shows save iff the text differs; stop hides save; disabled hides both. */
  function SetButtonMode(e: Editor, mode: ButtonMode): (r: Editor)
    ensures r.mode == mode
    ensures r.runVisible <==> mode != Disabled
    ensures r.saveVisible <==> mode == RunMode && Differs(e)
    ensures r.text == e.text && r.code == e.code && r.modified == e.modified && r.error == e.error
  {
    match mode
    case RunMode => e.(mode := mode, runVisible := true, saveVisible := Differs(e))
    case StopMode => e.(mode := mode, runVisible := true, saveVisible := false)
    case Disabled => e.(mode := mode, runVisible := false, saveVisible := false)
  }

  /** A new editor: empty, unmodified, in run mode with the save button hidden. */
  function New(name: string): (e: Editor)
    ensures Valid(e) && e.mode == RunMode && !e.saveVisible && e.error.None?
  {
    SetButtonMode(Editor(name, "", "", false, RunMode, false, false, false, None, None), RunMode)
  }

  /** `on_edit`: the text changed; a check is scheduled unless one already is. */
  function Edit(e: Editor, text: string): (r: Editor)
    ensures r.checkPending && r.text == text
    ensures r.modified == e.modified && r.saveVisible == e.saveVisible
  {
    e.(text := text, checkPending := true)
  }

  /** `highlight(line, msg)`: mark the line, or clear the mark when `line` is `None`; the tooltip needs a message. */
  function Highlight(e: Editor, line: Option<int>, msg: Option<string>): (r: Editor)
    ensures line.None? ==> r.marked.None? && r.error.None?
    ensures r.error.Some? <==> line.Some? && msg.Some? && msg.value != ""
    ensures r.error.Some? ==> r.error.value == ErrorMark(line.value, msg.value)
    ensures r.marked == line
    ensures r.(marked := e.marked, error := e.error) == e
  {
    if line.None? then e.(marked := None, error := None)
    else if msg.Some? && msg.value != "" then e.(marked := line, error := Some(ErrorMark(line.value, msg.value)))
    else e.(marked := line, error := None)
  }

  /**
   * `updateModifyState(m)`: record the flag, tell the window, show save
   * accordingly in run mode only, and clear any error mark when modified.
   */
  function UpdateModifyState(e: Editor, m: bool): (r: (Editor, seq<Signal>))
    ensures r.0.modified == m
    ensures r.1 == [Modified(e.name, m)]
    ensures r.0.saveVisible == (if e.mode == RunMode then m else e.saveVisible)
    ensures m ==> r.0.marked.None? && r.0.error.None?
    ensures !m ==> r.0.marked == e.marked && r.0.error == e.error
    ensures r.0.text == e.text && r.0.code == e.code && r.0.mode == e.mode && r.0.runVisible == e.runVisible
  {
    var e1 := e.(modified := m);
    var e2 := if e.mode == RunMode then e1.(saveVisible := m) else e1;
    var e3 := if m then Highlight(e2, None, None) else e2;
    (e3, [Modified(e.name, m)])
  }

  /** `on_timer`: the scheduled check runs; the flag is updated (and announced) only when it changed. */
  function CheckModified(e: Editor): (r: (Editor, seq<Signal>))
    ensures !r.0.checkPending
    ensures r.0.modified == Differs(e)
    ensures r.1 == if e.modified == Differs(e) then [] else [Modified(e.name, Differs(e))]
  {
    var e1 := e.(checkPending := false);
    var m := Differs(e1);
    if m != e1.modified then UpdateModifyState(e1, m) else (e1, [])
  }

  /** `saved()`: the current text becomes the saved code and the editor is unmodified. */
  function Saved(e: Editor): (r: (Editor, seq<Signal>))
    ensures r.0.code == e.text && r.0.text == e.text && !r.0.modified && !Differs(r.0)
    ensures r.1 == [Modified(e.name, false)]
  {
    UpdateModifyState(e.(code := e.text), false)
  }

  /** `on_run`: run in run mode, stop in stop mode, nothing while the button is hidden. */
  function OnRun(e: Editor): (s: Option<Signal>)
    requires Valid(e)
    ensures e.mode == RunMode <==> s == Some(Run(e.name, e.text))
    ensures e.mode == StopMode <==> s == Some(Stop)
    ensures e.mode == Disabled <==> s.None?
  {
    if !e.runVisible then None
    else if e.mode == RunMode then Some(Run(e.name, e.text))
    else if e.mode == StopMode then Some(Stop)
    else None
  }

  /** `on_save`: the text is saved only while the save button shows. */
  function OnSave(e: Editor): (s: Option<Signal>)
    ensures s.Some? <==> e.saveVisible
    ensures s.Some? ==> s.value == Save(e.name, e.text)
  {
    if e.saveVisible then Some(Save(e.name, e.text)) else None
  }

  /** Saving is only ever offered in run mode: never while code runs or the board is busy. */
  lemma SaveOnlyInRunMode(e: Editor)
    requires Valid(e)
    requires OnSave(e).Some?
    ensures e.mode == RunMode
  {
  }

  /** Every event keeps an editor valid. */
  lemma ValidPreserved(e: Editor, mode: ButtonMode, text: string, line: Option<int>, msg: Option<string>)
    requires Valid(e)
    ensures Valid(SetButtonMode(e, mode))
    ensures Valid(Edit(e, text))
    ensures Valid(CheckModified(e).0)
    ensures Valid(Saved(e).0)
    ensures Valid(Highlight(e, line, msg))
  {
    ModeValid(e, mode);
    EditValid(e, text);
    CheckValid(e);
    SavedValid(e);
    HighlightValid(e, line, msg);
  }

  lemma ModeValid(e: Editor, mode: ButtonMode)
    requires Valid(e)
    ensures Valid(SetButtonMode(e, mode))
  {
  }

  lemma EditValid(e: Editor, text: string)
    requires Valid(e)
    ensures Valid(Edit(e, text))
  {
  }

  lemma CheckValid(e: Editor)
    requires Valid(e)
    ensures Valid(CheckModified(e).0)
  {
  }

  lemma SavedValid(e: Editor)
    requires Valid(e)
    ensures Valid(Saved(e).0)
  {
  }

  lemma HighlightValid(e: Editor, line: Option<int>, msg: Option<string>)
    requires Valid(e)
    ensures Valid(Highlight(e, line, msg))
  {
  }

  /** The events an editor receives. */
  datatype Event = SetMode(mode: ButtonMode) | Typed(text: string) | CheckTimer | SavedEvent
                 | Mark(line: Option<int>, msg: Option<string>)

  function Apply(e: Editor, ev: Event): Editor {
    match ev
    case SetMode(mode) => SetButtonMode(e, mode)
    case Typed(text) => Edit(e, text)
    case CheckTimer => CheckModified(e).0
    case SavedEvent => Saved(e).0
    case Mark(line, msg) => Highlight(e, line, msg)
  }

  function ApplyAll(e: Editor, events: seq<Event>): Editor
    decreases |events|
  {
    if |events| == 0 then e else ApplyAll(Apply(e, events[0]), events[1..])
  }

  /**
   * From a new editor, whatever happens, the buttons match the mode (so run
   * and stop are only emitted in their modes and save only in run mode) and
   * the flag matches the text whenever no check is pending.
   */
  lemma {:induction false} AlwaysValid(e: Editor, events: seq<Event>)
    requires Valid(e)
    ensures Valid(ApplyAll(e, events))
    decreases |events|
  {
    if |events| > 0 {
      var ev := events[0];
      match ev {
        case SetMode(mode) => ValidPreserved(e, mode, "", None, None);
        case Typed(text) => ValidPreserved(e, RunMode, text, None, None);
        case CheckTimer => ValidPreserved(e, RunMode, "", None, None);
        case SavedEvent => ValidPreserved(e, RunMode, "", None, None);
        case Mark(line, msg) => ValidPreserved(e, RunMode, "", line, msg);
      }
      AlwaysValid(Apply(e, ev), events[1..]);
    }
  }

  /** What a tooltip request over the editor does. */
  datatype Tip = ShowTip(msg: string) | HideTip | PassOn

  /** `event` for a tooltip over block `hoverLine`: the message over the error line, nothing elsewhere; without an error Qt handles it. */
  function ToolTip(e: Editor, hoverLine: int): (t: Tip)
    ensures t.ShowTip? <==> e.error.Some? && e.error.value.line == hoverLine
    ensures t.ShowTip? ==> t.msg == e.error.value.msg
    ensures t.PassOn? <==> e.error.None?
  {
    match e.error
    case None => PassOn
    case Some(err) => if err.line == hoverLine then ShowTip(err.msg) else HideTip
  }

  /** Once the text is modified, the error tooltip is gone. */
  lemma ModifiedClearsTip(e: Editor, hoverLine: int)
    requires e.text != e.code && !e.modified
    ensures ToolTip(CheckModified(e).0, hoverLine) == PassOn
  {
  }

  /** The spaces the Tab key inserts at column `col`: up to the next multiple of four. */
  function TabSpaces(col: nat): (n: nat)
    ensures 1 <= n <= 4
    ensures TabStop(col + n)
    ensures forall c :: col < c < col + n ==> !TabStop(c)
  {
    4 - col % 4
  }

  function Pow10(d: nat): nat {
    if d == 0 then 1 else 10 * Pow10(d - 1)
  }

  /** A number printed in decimal has `d` digits exactly when it lies in [10^(d-1), 10^d). */
  lemma {:induction false} DecimalLength(n: nat)
    ensures n < Pow10(|Decimal(n)|)
    ensures n >= 10 ==> Pow10(|Decimal(n)| - 1) <= n
    decreases n
  {
    if n >= 10 {
      DecimalLength(n / 10);
      var d := |Decimal(n / 10)|;
      assert |Decimal(n)| == d + 1;
    }
  }

  /**
   * `lineNumberAreaWidth`'s digit count: divide by ten until below ten. It is
   * the length of the decimal form of the block count, at least one.
   */
  method LineNumberDigits(blockCount: int) returns (digits: nat)
    ensures digits == |Decimal(if blockCount < 1 then 1 else blockCount)|
  {
    digits := 1;
    var count: nat := if blockCount < 1 then 1 else blockCount;
    while count >= 10
      invariant count >= 1
      invariant digits + |Decimal(count)| - 1 == |Decimal(if blockCount < 1 then 1 else blockCount)|
      decreases count
    {
      assert |Decimal(count)| == |Decimal(count / 10)| + 1;
      count := count / 10;
      digits := digits + 1;
    }
  }

  /** The gutter width: three pixels plus one digit width per digit. */
  method LineNumberWidth(blockCount: int, digitWidth: nat) returns (width: nat)
    ensures width == 3 + digitWidth * |Decimal(if blockCount < 1 then 1 else blockCount)|
  {
    var digits := LineNumberDigits(blockCount);
    width := 3 + digitWidth * digits;
  }
}

=== FILE: highlighter.dfy ===
/**
 * The part of the Python syntax highlighter that spans lines: strings in
 * triple quotes. Each block (line) of text is scanned for the delimiter;
 * the scan records the character spans to colour as strings and whether the
 * block ends inside an open string, which becomes the block state the next
 * block starts from.
 */
module Highlighter {
  import opened Base

  /** The two delimiters, with the block states that mean "inside" them. */
  const TriSingle: string := "'''"
  const TriDouble: string := "\"\"\""
  const SingleState: int := 1
  const DoubleState: int := 2

  /** A formatted range: `setFormat(start, length, style)`. */
  datatype Span = Span(start: int, length: int)

  /** The spans one delimiter's scan formats, and whether the block ends inside a string. */
  datatype Multiline = Multiline(spans: seq<Span>, inside: bool)

  /** `pat` occurs in `text` at `k`, compared character by character. */
  predicate Occurs(text: string, pat: string, k: nat)
    ensures Occurs(text, pat, k) ==> k + |pat| <= |text|
    decreases |pat|
  {
    if |pat| == 0 then k <= |text| else k < |text| && text[k] == pat[0] && Occurs(text, pat[1..], k + 1)
  }

  /** `pat` occurs in `text` at `k`: the slice there is `pat`. */
  predicate At(text: string, pat: string, k: int) {
    0 <= k && k + |pat| <= |text| && text[k..k + |pat|] == pat
  }

  /** The character-by-character comparison is the slice comparison. */
  lemma {:induction false} OccursAt(text: string, pat: string, k: nat)
    ensures Occurs(text, pat, k) <==> At(text, pat, k)
    decreases |pat|
  {
    if |pat| > 0 && k < |text| {
      OccursAt(text, pat[1..], k + 1);
      if k + |pat| <= |text| {
        assert text[k..k + |pat|] == [text[k]] + text[k + 1..k + 1 + |pat[1..]|];
        assert pat == [pat[0]] + pat[1..];
      }
    }
  }

  /**
   * `indexIn(text, from)` for a literal pattern: the first occurrence at or
   * after `from`, or -1 (also when `from` lies past the end).
   */
  function Find(text: string, pat: string, from: nat): (r: int)
    requires |pat| > 0
    ensures r == -1 || (from <= r && Occurs(text, pat, r))
    decreases |text| - from
  {
    if from + |pat| > |text| then -1
    else if Occurs(text, pat, from) then from
    else Find(text, pat, from + 1)
  }

  /** `Find` answers the first occurrence, and -1 only when there is none. */
  lemma {:induction false} FindIsFirst(text: string, pat: string, from: nat)
    requires |pat| > 0
    ensures var r := Find(text, pat, from);
            && (r >= 0 ==> forall k :: from <= k < r ==> !Occurs(text, pat, k))
            && (r == -1 ==> forall k :: from <= k ==> !Occurs(text, pat, k))
    decreases |text| - from
  {
    if from + |pat| <= |text| && !Occurs(text, pat, from) {
      FindIsFirst(text, pat, from + 1);
    }
  }

  /** The number of occurrences a left-to-right scan from `from` meets, none overlapping. */
  function Count(text: string, pat: string, from: nat): nat
    requires |pat| > 0
    decreases |text| - from
  {
    var k := Find(text, pat, from);
    if k < 0 then 0 else 1 + Count(text, pat, k + |pat|)
  }

  /** A span lies within a block of `n` characters. */
  predicate Within(s: Span, n: nat) {
    0 <= s.start && 0 <= s.length && s.start + s.length <= n
  }

  // ---------------------------------------------------------------------------
  // The scan as written

  /**
   * The loop of `match_multiline` as written, from a string that starts at
   * `start` and whose closing delimiter is searched from `start + add`. A
   * closed string gets length `end - start + add + |d|`, an open one
   * `|text| - start + add`; the next search starts after that length, and
   * `add` keeps the value it had on entry.
   */
  function ScanAsWritten(text: string, d: string, start: nat, add: nat): (r: Multiline)
    requires |d| > 0 && start <= |text|
    ensures |r.spans| >= 1 && r.spans[0].start == start
    ensures forall i :: 0 <= i < |r.spans| ==> 0 <= r.spans[i].start <= |text|
    decreases |text| - start
  {
    var end := Find(text, d, start + add);
    var closed := end >= add;
    var length := if closed then end - start + add + |d| else |text| - start + add;
    var next := Find(text, d, start + length);
    if next < 0 then Multiline([Span(start, length)], !closed)
    else
      var rest := ScanAsWritten(text, d, next, add);
      Multiline([Span(start, length)] + rest.spans, rest.inside)
  }

  /**
   * `match_multiline(text, delimiter, in_state)` as written: inside a string
   * carried over from the previous block the scan starts at 0 with `add`
   * 0; otherwise it starts at the first delimiter with `add` the
   * delimiter's length. No delimiter means no span and not inside.
   */
  function MatchAsWritten(text: string, d: string, inState: int, prevState: int): (r: Multiline)
    requires |d| > 0
    ensures prevState == inState ==> r.spans != [] && r.spans[0].start == 0
    ensures prevState != inState && Find(text, d, 0) < 0 ==> r == Multiline([], false)
  {
    if prevState == inState then ScanAsWritten(text, d, 0, 0)
    else
      var start := Find(text, d, 0);
      if start < 0 then Multiline([], false) else ScanAsWritten(text, d, start, |d|)
  }

  // ---------------------------------------------------------------------------
  // The scan as intended

  /**
   * The loop as intended: a closed string runs from `start` to just past
   * its closing delimiter, an open one to the end of the block, and every
   * later string starts at an opening delimiter, so its closing one is
   * searched after it.
   */
  function Scan(text: string, d: string, start: nat, add: nat): (r: Multiline)
    requires |d| > 0 && start <= |text|
    ensures |r.spans| >= 1 && r.spans[0].start == start
    ensures r.inside ==> r.spans[|r.spans| - 1].start + r.spans[|r.spans| - 1].length == |text|
    decreases |text| - start
  {
    var end := Find(text, d, start + add);
    var closed := end >= 0;
    var length := if closed then end + |d| - start else |text| - start;
    var next := Find(text, d, start + length);
    if next < 0 then Multiline([Span(start, length)], !closed)
    else
      var rest := Scan(text, d, next, |d|);
      Multiline([Span(start, length)] + rest.spans, rest.inside)
  }

  predicate AllWithin(spans: seq<Span>, n: nat) {
    forall i :: 0 <= i < |spans| ==> Within(spans[i], n)
  }

  /** Each span ends before any later one starts. */
  predicate Ordered(spans: seq<Span>) {
    forall i, j :: 0 <= i < j < |spans| ==> spans[i].start + spans[i].length <= spans[j].start
  }

  /** The strings the scan formats lie within the block and follow one another without overlap. */
  lemma {:induction false} ScanSpans(text: string, d: string, start: nat, add: nat)
    requires |d| > 0 && start <= |text|
    ensures AllWithin(Scan(text, d, start, add).spans, |text|)
    ensures Ordered(Scan(text, d, start, add).spans)
    decreases |text| - start
  {
    var end := Find(text, d, start + add);
    var length := if end >= 0 then end + |d| - start else |text| - start;
    assert start + length <= |text|;
    var next := Find(text, d, start + length);
    if next >= 0 {
      var rest := Scan(text, d, next, |d|);
      ScanSpans(text, d, next, |d|);
      assert Scan(text, d, start, add).spans == [Span(start, length)] + rest.spans;
      ConsOrdered(Span(start, length), rest.spans, |text|);
    } else {
      assert Scan(text, d, start, add).spans == [Span(start, length)];
    }
  }

  /** A span that ends before a run of ordered spans begins can be put in front of them. */
  lemma ConsOrdered(s: Span, rest: seq<Span>, n: nat)
    requires |rest| >= 1 && Within(s, n) && s.start + s.length <= rest[0].start
    requires AllWithin(rest, n) && Ordered(rest)
    ensures AllWithin([s] + rest, n) && Ordered([s] + rest)
  {
    var all := [s] + rest;
    forall i, j | 0 <= i < j < |all| ensures all[i].start + all[i].length <= all[j].start {
      if i == 0 {
        assert all[j] == rest[j - 1];
        if j > 1 {
          assert rest[0].start + rest[0].length <= rest[j - 1].start;
        }
      } else {
        assert all[i] == rest[i - 1] && all[j] == rest[j - 1];
      }
    }
  }

  /** `match_multiline` as intended. */
  function Match(text: string, d: string, inState: int, prevState: int): (r: Multiline)
    requires |d| > 0
    ensures forall i :: 0 <= i < |r.spans| ==> Within(r.spans[i], |text|)
    ensures prevState == inState ==> r.spans != [] && r.spans[0].start == 0
    ensures prevState != inState && Find(text, d, 0) < 0 ==> r == Multiline([], false)
    ensures prevState != inState && r.spans != [] ==> r.spans[0].start >= 0 && Occurs(text, d, r.spans[0].start)
  {
    if prevState == inState then
      ScanSpans(text, d, 0, 0);
      Scan(text, d, 0, 0)
    else
      var start := Find(text, d, 0);
      if start < 0 then Multiline([], false)
      else
        ScanSpans(text, d, start, |d|);
        Scan(text, d, start, |d|)
  }

  /** One step of the scan: the first string, then the scan from the next opening delimiter. */
  lemma ScanStep(text: string, d: string, start: nat, add: nat) returns (length: nat, next: int)
    requires |d| > 0 && start <= |text|
    ensures next == -1 || (start + length <= next && Occurs(text, d, next))
    ensures Scan(text, d, start, add).spans[0] == Span(start, length)
    ensures next < 0 ==> |Scan(text, d, start, add).spans| == 1
    ensures next >= 0 ==> Closes(text, d, Span(start, length))
    ensures next >= 0 ==> Scan(text, d, start, add).spans == [Span(start, length)] + Scan(text, d, next, |d|).spans
  {
    var end := Find(text, d, start + add);
    length := if end >= 0 then end + |d| - start else |text| - start;
    next := Find(text, d, start + length);
    if end < 0 {
      assert next == -1;
    }
  }

  /** Every string after the first starts with the delimiter. */
  lemma {:induction false} ScanOpens(text: string, d: string, start: nat, add: nat)
    requires |d| > 0 && start <= |text|
    ensures var spans := Scan(text, d, start, add).spans;
            forall i :: 0 < i < |spans| ==> spans[i].start >= 0 && Occurs(text, d, spans[i].start)
    decreases |text| - start
  {
    var length, next := ScanStep(text, d, start, add);
    if next >= 0 {
      ScanOpens(text, d, next, |d|);
      var rest := Scan(text, d, next, |d|).spans;
      var spans := Scan(text, d, start, add).spans;
      forall i | 0 < i < |spans| ensures spans[i].start >= 0 && Occurs(text, d, spans[i].start) {
        assert spans[i] == rest[i - 1];
      }
    }
  }

  /** The span ends with the delimiter. */
  predicate Closes(text: string, d: string, s: Span) {
    s.start >= 0 && s.length >= |d| && Occurs(text, d, s.start + s.length - |d|)
  }

  /** Every string but the last ends with the delimiter. */
  lemma {:induction false} ScanCloses(text: string, d: string, start: nat, add: nat)
    requires |d| > 0 && start <= |text|
    ensures var spans := Scan(text, d, start, add).spans;
            forall i :: 0 <= i < |spans| - 1 ==> Closes(text, d, spans[i])
    decreases |text| - start
  {
    var length, next := ScanStep(text, d, start, add);
    if next >= 0 {
      ScanCloses(text, d, next, |d|);
      var rest := Scan(text, d, next, |d|).spans;
      var spans := Scan(text, d, start, add).spans;
      forall i | 0 <= i < |spans| - 1 ensures Closes(text, d, spans[i]) {
        if i > 0 {
          assert spans[i] == rest[i - 1];
        }
      }
    }
  }

  /**
   * The scan meets the delimiters in order, pairing them as opening and
   * closing: it ends inside a string exactly when the delimiters from the
   * first closing search on are even in number.
   */
  lemma ScanParity(text: string, d: string, start: nat, add: nat)
    requires |d| > 0 && start <= |text|
    ensures Scan(text, d, start, add).inside <==> Count(text, d, start + add) % 2 == 0
  {
    ScanPaired(text, d, start, add);
    PairedCount(text, d, start + add);
  }

  /** The delimiters from `from` on pair off: each opening one has a closing one. */
  predicate Paired(text: string, d: string, from: nat)
    requires |d| > 0
    decreases |text| - from
  {
    var k := Find(text, d, from);
    k < 0 || !Paired(text, d, k + |d|)
  }

  lemma {:induction false} PairedCount(text: string, d: string, from: nat)
    requires |d| > 0
    ensures Paired(text, d, from) <==> Count(text, d, from) % 2 == 0
    decreases |text| - from
  {
    var k := Find(text, d, from);
    if k >= 0 {
      PairedCount(text, d, k + |d|);
      OneMore(Count(text, d, from), Count(text, d, k + |d|));
    }
  }

  lemma {:induction false} ScanPaired(text: string, d: string, start: nat, add: nat)
    requires |d| > 0 && start <= |text|
    ensures Scan(text, d, start, add).inside <==> Paired(text, d, start + add)
    decreases |text| - start
  {
    var end := Find(text, d, start + add);
    if end < 0 {
      ScanOpenEnd(text, d, start, add);
      PairedStep(text, d, start + add, end);
    } else {
      var next := Find(text, d, end + |d|);
      PairedStep(text, d, start + add, end);
      PairedStep(text, d, end + |d|, next);
      if next < 0 {
        ScanClosedEnd(text, d, start, add, end);
      } else {
        ScanTwoSteps(text, d, start, add, end, next);
        ScanPaired(text, d, next, |d|);
      }
    }
  }

  /** One step of `Paired`: none left, or the rest after this delimiter does not pair off. */
  lemma PairedStep(text: string, d: string, from: nat, k: int)
    requires |d| > 0 && k == Find(text, d, from)
    ensures k < 0 ==> Paired(text, d, from)
    ensures k >= 0 ==> (Paired(text, d, from) <==> !Paired(text, d, k + |d|))
  {
  }

  /** No closing delimiter: the scan ends inside the string, and there are no delimiters. */
  lemma ScanOpenEnd(text: string, d: string, start: nat, add: nat)
    requires |d| > 0 && start <= |text| && Find(text, d, start + add) < 0
    ensures Scan(text, d, start, add).inside
  {
    ScanInside(text, d, start, add);
  }

  /** A closing delimiter and no opening one after it: the scan ends outside. */
  lemma ScanClosedEnd(text: string, d: string, start: nat, add: nat, end: int)
    requires |d| > 0 && start <= |text| && end == Find(text, d, start + add) && end >= 0
    requires Find(text, d, end + |d|) < 0
    ensures !Scan(text, d, start, add).inside
  {
    ScanInside(text, d, start, add);
  }

  /** A closing and a later opening delimiter: the scan continues from the opening one. */
  lemma ScanTwoSteps(text: string, d: string, start: nat, add: nat, end: int, next: int)
    requires |d| > 0 && start <= |text| && end == Find(text, d, start + add) && end >= 0
    requires next == Find(text, d, end + |d|) && next >= 0
    ensures start < next <= |text|
    ensures Scan(text, d, start, add).inside == Scan(text, d, next, |d|).inside
  {
    ScanInside(text, d, start, add);
  }

  lemma OneMore(c: nat, c1: nat)
    requires c == 1 + c1
    ensures c % 2 == 1 <==> c1 % 2 == 0
  {
  }

  /** Whether a scan ends inside a string, one string at a time. */
  lemma ScanInside(text: string, d: string, start: nat, add: nat)
    requires |d| > 0 && start <= |text|
    ensures var end := Find(text, d, start + add);
            Scan(text, d, start, add).inside
            == if end < 0 then true
               else var next := Find(text, d, end + |d|);
                    if next < 0 then false else Scan(text, d, next, |d|).inside
  {
    var end := Find(text, d, start + add);
    if end < 0 {
      assert Find(text, d, |text|) == -1;
    } else {
      assert start + (end + |d| - start) == end + |d|;
    }
  }

  /**
   * A block ends inside a string exactly when the delimiters in it, plus one
   * for a string carried over from the previous block, are odd in number.
   */
  lemma MatchParity(text: string, d: string, inState: int, prevState: int)
    requires |d| > 0
    ensures Match(text, d, inState, prevState).inside
            <==> (Count(text, d, 0) + (if prevState == inState then 1 else 0)) % 2 == 1
  {
    var m := Match(text, d, inState, prevState);
    var c := Count(text, d, 0);
    if prevState == inState {
      ScanParity(text, d, 0, 0);
      assert m == Scan(text, d, 0, 0);
      OneMore(c + 1, c);
    } else {
      var start := Find(text, d, 0);
      if start >= 0 {
        ScanParity(text, d, start, |d|);
        assert m == Scan(text, d, start, |d|);
        OneMore(c, Count(text, d, start + |d|));
      }
    }
  }

  /** Without a delimiter in the block, both scans agree: the carried string covers the block, or nothing happens. */
  lemma NoDelimiterAgrees(text: string, d: string, inState: int, prevState: int)
    requires |d| > 0 && Find(text, d, 0) < 0
    ensures MatchAsWritten(text, d, inState, prevState) == Match(text, d, inState, prevState)
    ensures prevState == inState ==> Match(text, d, inState, prevState) == Multiline([Span(0, |text|)], true)
  {
    if prevState == inState {
      assert Find(text, d, |text|) < 0;
    }
  }

  /** A string carried over and closed in this block gets its first span right in the scan as written too. */
  lemma CarriedFirstSpanAgrees(text: string, d: string, inState: int)
    requires |d| > 0
    ensures MatchAsWritten(text, d, inState, inState).spans[0] == Match(text, d, inState, inState).spans[0]
  {
  }

  // ---------------------------------------------------------------------------
  // Where the scan as written goes wrong

  /** A closed string's span as written reaches `|d|` characters past its closing delimiter, here past the block's end. */
  lemma OvershootExample()
    ensures |"'''a'''"| == 7
    ensures MatchAsWritten("'''a'''", TriSingle, SingleState, 0).spans == [Span(0, 10)]
    ensures Match("'''a'''", TriSingle, SingleState, 0).spans == [Span(0, 7)]
  {
  }

  /**
   * Because of the overshoot the next search starts too late: a string
   * opened right after a closed one is missed, and the block is taken to
   * end outside a string.
   */
  lemma MissedReopenExample()
    ensures !MatchAsWritten("'''a''''''", TriSingle, SingleState, 0).inside
    ensures Match("'''a''''''", TriSingle, SingleState, 0).inside
  {
    MissedReopenAsWritten();
    ReopenCorrected();
  }

  lemma MissedReopenAsWritten()
    ensures !MatchAsWritten("'''a''''''", TriSingle, SingleState, 0).inside
  {
  }

  lemma ReopenCorrected()
    ensures Match("'''a''''''", TriSingle, SingleState, 0).inside
  {
    var text := "'''a''''''";
    assert Find(text, TriSingle, 0) == 0;
    assert Find(text, TriSingle, 3) == 4;
    assert Find(text, TriSingle, 7) == 7;
    assert Find(text, TriSingle, 10) == -1;
    assert Scan(text, TriSingle, 7, 3).inside;
  }

  /**
   * After a carried string closes, `add` stays 0, so the next opening
   * delimiter is also found as its own closing one: the string it opens is
   * lost and the block is taken to end outside a string.
   */
  lemma ReopenAfterCarryExample()
    ensures !MatchAsWritten("a'''b'''", TriSingle, SingleState, SingleState).inside
    ensures MatchAsWritten("a'''b'''", TriSingle, SingleState, SingleState).spans == [Span(0, 4), Span(5, 3)]
    ensures Match("a'''b'''", TriSingle, SingleState, SingleState).inside
  {
  }

  // ---------------------------------------------------------------------------
  // One block

  /** The block state after highlighting, and the string spans of each delimiter. */
  datatype Block = Block(state: int, single: Multiline, double: Option<Multiline>)

  /**
   * `highlightBlock`'s string part, as intended: the state is reset to 0,
   * triple single quotes are scanned, and triple double quotes only when the
   * block does not end inside a single-quoted string.
   */
  function HighlightBlock(text: string, prevState: int): (b: Block)
    ensures b.state in {0, SingleState, DoubleState}
    ensures b.state == SingleState <==> b.single.inside
    ensures b.double.Some? <==> !b.single.inside
    ensures b.state == DoubleState <==> b.double.Some? && b.double.value.inside
  {
    var single := Match(text, TriSingle, SingleState, prevState);
    if single.inside then Block(SingleState, single, None)
    else
      var double := Match(text, TriDouble, DoubleState, prevState);
      Block(if double.inside then DoubleState else 0, single, Some(double))
  }

  /**
   * The block state is "inside triple single quotes" exactly when that
   * delimiter occurs an odd number of times counting the carried string.
   */
  lemma HighlightBlockState(text: string, prevState: int)
    ensures HighlightBlock(text, prevState).state == SingleState
            <==> (Count(text, TriSingle, 0) + (if prevState == SingleState then 1 else 0)) % 2 == 1
  {
    MatchParity(text, TriSingle, SingleState, prevState);
  }

  /** A block without any triple quote, not continuing a string, ends in state 0 with nothing formatted. */
  lemma PlainBlock(text: string, prevState: int)
    requires Find(text, TriSingle, 0) < 0 && Find(text, TriDouble, 0) < 0
    requires prevState != SingleState && prevState != DoubleState
    ensures HighlightBlock(text, prevState) == Block(0, Multiline([], false), Some(Multiline([], false)))
  {
  }
}

=== FILE: paths.dfy ===
/**
 * Board path names as the backup and restore code sees them: every name is
 * treated as absolute, so one leading "/" is removed before a name goes into
 * the archive, and a file's directories are "/p1", "/p1/p2", ... for the
 * components before its last "/".
 */
module Paths {
  import opened PyStr

  /** The name with exactly one leading "/" removed, if it has one. */
  function Unrooted(path: string): (r: string)
    ensures r == path || "/" + r == path
    ensures |r| < |path| <==> StartsWith(path, "/")
  {
    if StartsWith(path, "/") then path[1..] else path
  }

  /** Only one "/" is removed: a name that was absolute comes back exactly. */
  lemma UnrootedAbsolute(name: string)
    ensures Unrooted("/" + name) == name
  {
  }

  /** The components of the path before its last "/". */
  function DirParts(path: string): seq<string> {
    var parts := Split(Unrooted(path), '/');
    parts[..|parts| - 1]
  }

  /** "/p1", "/p1/p2", ...: each prefix of the components, joined with "/" and made absolute. */
  function Prefixes(parts: seq<string>): seq<string> {
    seq(|parts|, i requires 0 <= i < |parts| => "/" + Join(parts[..i + 1], '/'))
  }

  /**
   * The proper ancestors of a path, shallowest first. There is one per "/"
   * after the leading one, and each, followed by "/" and the remaining
   * components, rebuilds the absolute form of the path; the deepest one is
   * followed by the file's own name.
   */
  function Ancestors(path: string): (r: seq<string>)
    ensures |r| + 1 == |Split(Unrooted(path), '/')|
    ensures |r| == multiset(Unrooted(path))['/']
    ensures forall i :: 0 <= i < |r| ==>
              "/" + Unrooted(path) == r[i] + "/" + Join(Split(Unrooted(path), '/')[i + 1..], '/')
  {
    SplitCount(Unrooted(path), '/');
    PrefixesRebuild(path);
    Prefixes(DirParts(path))
  }

  lemma PrefixesRebuild(path: string)
    ensures forall i :: 0 <= i < |Prefixes(DirParts(path))| ==>
              "/" + Unrooted(path) == Prefixes(DirParts(path))[i] + "/" + Join(Split(Unrooted(path), '/')[i + 1..], '/')
  {
    forall i | 0 <= i < |Prefixes(DirParts(path))|
      ensures "/" + Unrooted(path) == Prefixes(DirParts(path))[i] + "/" + Join(Split(Unrooted(path), '/')[i + 1..], '/')
    {
      PrefixRebuilds(path, i);
    }
  }

  lemma PrefixRebuilds(path: string, i: nat)
    requires i < |DirParts(path)|
    ensures var parts := Split(Unrooted(path), '/');
            "/" + Unrooted(path) == Prefixes(DirParts(path))[i] + "/" + Join(parts[i + 1..], '/')
  {
    var u := Unrooted(path);
    var parts := Split(u, '/');
    var head, tail := parts[..i + 1], parts[i + 1..];
    assert DirParts(path) == parts[..|parts| - 1];
    assert DirParts(path)[..i + 1] == head;
    assert Prefixes(DirParts(path))[i] == "/" + Join(head, '/');
    JoinSplit(u, '/');
    assert parts == head + tail;
    JoinConcat(head, tail, '/');
    Rooted(u, Join(head, '/'), Join(tail, '/'));
  }

  lemma Rooted(u: string, a: string, b: string)
    requires u == a + "/" + b
    ensures "/" + u == ("/" + a) + "/" + b
  {
  }

  /** Ancestors get strictly deeper: each one is a proper prefix of the next. */
  lemma AncestorsDeepen(path: string, i: nat)
    requires i + 1 < |Ancestors(path)|
    ensures Ancestors(path)[i] + "/" <= Ancestors(path)[i + 1]
  {
    var parts := DirParts(path);
    assert parts[..i + 2] == parts[..i + 1] + [parts[i + 1]];
    JoinConcat(parts[..i + 1], [parts[i + 1]], '/');
  }

  /** A name with no "/" after the leading one has no ancestors to create. */
  lemma NoSlashNoAncestors(path: string)
    requires '/' !in Unrooted(path)
    ensures Ancestors(path) == []
  {
  }

  /** The ancestors are pairwise different, since they differ in length. */
  lemma AncestorsDistinct(path: string)
    ensures forall i, j :: 0 <= i < j < |Ancestors(path)| ==> Ancestors(path)[i] != Ancestors(path)[j]
  {
    var anc := Ancestors(path);
    forall i, j | 0 <= i < j < |anc| ensures |anc[i]| < |anc[j]| {
      AncestorsLonger(path, i, j);
    }
  }

  lemma {:induction false} AncestorsLonger(path: string, i: nat, j: nat)
    requires i < j < |Ancestors(path)|
    ensures |Ancestors(path)[i]| < |Ancestors(path)[j]|
    decreases j - i
  {
    AncestorsDeepen(path, i);
    if i + 1 < j {
      AncestorsLonger(path, i + 1, j);
    }
  }
}

=== FILE: pystr.dfy ===
/**
 * The handful of Python `str` operations the IDE's logic is built from, with
 * CPython's semantics: `strip`, `lower`, `startswith`/`endswith`, `split` and
 * `join` on a one-character separator, `replace`, and `int()` on a stripped
 * token. Strings are sequences of Unicode code points.
 */
module PyStr {
  import opened Base

  /** `c.isspace()`: CPython's whitespace set, used by `str.strip()`. */
  predicate IsSpace(c: char) {
    var n := c as int;
    (9 <= n <= 13) || (28 <= n <= 32) || n == 0x85 || n == 0xA0 || n == 0x1680
    || (0x2000 <= n <= 0x200A) || n == 0x2028 || n == 0x2029 || n == 0x202F
    || n == 0x205F || n == 0x3000
  }

  /** Drops the longest prefix of characters satisfying `drop`. */
  function TrimLeft(s: string, drop: char -> bool): (r: string)
    ensures |r| <= |s|
    decreases |s|
  {
    if |s| > 0 && drop(s[0]) then TrimLeft(s[1..], drop) else s
  }

  /** Drops the longest suffix of characters satisfying `drop`. */
  function TrimRight(s: string, drop: char -> bool): (r: string)
    ensures |r| <= |s|
    decreases |s|
  {
    if |s| > 0 && drop(s[|s| - 1]) then TrimRight(s[..|s| - 1], drop) else s
  }

  /** `s.strip()` */
  function Strip(s: string): string {
    TrimRight(TrimLeft(s, IsSpace), IsSpace)
  }

  /** `s.strip(c)` for a one-character argument. */
  function StripChar(s: string, c: char): string {
    TrimRight(TrimLeft(s, Is(c)), Is(c))
  }

  /** The test for one character. */
  function Is(c: char): char -> bool {
    x => x == c
  }

  /** `lower()` on the ASCII letters; other characters are kept. */
  function LowerChar(c: char): char {
    if 'A' <= c <= 'Z' then (c as int + 32) as char else c
  }

  function Lower(s: string): string {
    seq(|s|, k requires 0 <= k < |s| => LowerChar(s[k]))
  }

  predicate StartsWith(s: string, p: string) {
    |p| <= |s| && s[..|p|] == p
  }

  predicate EndsWith(s: string, p: string) {
    |p| <= |s| && s[|s| - |p|..] == p
  }

  /** `s.split(sep)`: the pieces between separators; never empty. */
  function Split(s: string, sep: char): (parts: seq<string>)
    ensures |parts| >= 1
    decreases |s|
  {
    if |s| == 0 then [""]
    else
      var rest := Split(s[1..], sep);
      if s[0] == sep then [""] + rest
      else [[s[0]] + rest[0]] + rest[1..]
  }

  /** `sep.join(parts)` */
  function Join(parts: seq<string>, sep: char): string
    decreases |parts|
  {
    if |parts| == 0 then ""
    else if |parts| == 1 then parts[0]
    else parts[0] + [sep] + Join(parts[1..], sep)
  }

  /** `parts[-1]` of a split: the text after the last separator. */
  function LastPart(s: string, sep: char): string {
    var parts := Split(s, sep);
    parts[|parts| - 1]
  }

  /** `s.replace(c, "")` for a single character `c`. */
  function RemoveChar(s: string, c: char): (r: string)
    ensures |r| <= |s|
    decreases |s|
  {
    if |s| == 0 then ""
    else if s[0] == c then RemoveChar(s[1..], c)
    else [s[0]] + RemoveChar(s[1..], c)
  }

  /** `s.replace(pat, rep)`: non-overlapping occurrences, left to right. */
  function ReplaceAll(s: string, pat: string, rep: string): string
    requires |pat| > 0
    decreases |s|
  {
    if |s| < |pat| then s
    else if s[..|pat|] == pat then rep + ReplaceAll(s[|pat|..], pat, rep)
    else [s[0]] + ReplaceAll(s[1..], pat, rep)
  }

  predicate IsDigit(c: char) {
    '0' <= c <= '9'
  }

  predicate AllDigits(s: string) {
    forall k :: 0 <= k < |s| ==> IsDigit(s[k])
  }

  function DigitChar(d: nat): (c: char)
    requires d < 10
    ensures IsDigit(c)
  {
    ('0' as int + d) as char
  }

  /** The value of a string of decimal digits, most significant first. */
  function DigitsValue(s: string): nat
    requires AllDigits(s)
    decreases |s|
  {
    if |s| == 0 then 0
    else DigitsValue(s[..|s| - 1]) * 10 + (s[|s| - 1] as int - '0' as int)
  }

  /** `str(n)` for a natural number. */
  function Decimal(n: nat): (s: string)
    ensures |s| > 0 && AllDigits(s)
    ensures |s| > 1 ==> s[0] != '0'
    decreases n
  {
    if n < 10 then [DigitChar(n)] else Decimal(n / 10) + [DigitChar(n % 10)]
  }

  /** Digits with single underscores between them, as `int()` accepts. */
  predicate UnderscoredDigits(s: string) {
    && |s| > 0
    && IsDigit(s[0])
    && IsDigit(s[|s| - 1])
    && (forall k :: 0 <= k < |s| ==> IsDigit(s[k]) || s[k] == '_')
    && (forall k :: 0 < k < |s| && s[k] == '_' ==> IsDigit(s[k - 1]))
  }

  function ParseUnsigned(s: string): (r: Option<nat>)
    ensures r.Some? <==> UnderscoredDigits(s)
  {
    if UnderscoredDigits(s) then
      var ds := RemoveChar(s, '_');
      UnderscoresRemoved(s);
      Some(DigitsValue(ds))
    else None
  }

  lemma UnderscoresRemoved(s: string)
    requires UnderscoredDigits(s)
    ensures AllDigits(RemoveChar(s, '_'))
  {
    var ds := RemoveChar(s, '_');
    RemoveCharSpec(s, '_');
    forall k | 0 <= k < |ds| ensures IsDigit(ds[k]) {
      assert ds[k] in ds;
      var j :| 0 <= j < |s| && s[j] == ds[k];
      assert ds[k] != '_';
      assert IsDigit(s[j]);
    }
  }

  /** `int(s)` on an already stripped token: an optional sign then digits; `None` is the `ValueError`. */
  function ParseInt(s: string): (r: Option<int>)
    ensures r.Some? <==> (if |s| > 0 && (s[0] == '+' || s[0] == '-') then UnderscoredDigits(s[1..]) else UnderscoredDigits(s))
  {
    if |s| > 0 && (s[0] == '+' || s[0] == '-') then
      match ParseUnsigned(s[1..])
      case None => None
      case Some(v) =>
        var i: int := if s[0] == '-' then -(v as int) else v;
        Some(i)
    else ParseUnsigned(s)
  }

  // ---------------------------------------------------------------------------
  // Lemmas

  /** `TrimLeft` removes exactly the leading run of dropped characters. */
  lemma {:induction false} TrimLeftSpec(s: string, drop: char -> bool)
    ensures var r := TrimLeft(s, drop);
            && r == s[|s| - |r|..]
            && (forall k :: 0 <= k < |s| - |r| ==> drop(s[k]))
            && (|r| > 0 ==> !drop(r[0]))
    decreases |s|
  {
    if |s| > 0 && drop(s[0]) {
      TrimLeftSpec(s[1..], drop);
    }
  }

  /** `TrimRight` removes exactly the trailing run of dropped characters. */
  lemma {:induction false} TrimRightSpec(s: string, drop: char -> bool)
    ensures var r := TrimRight(s, drop);
            && r == s[..|r|]
            && (forall k :: |r| <= k < |s| ==> drop(s[k]))
            && (|r| > 0 ==> !drop(r[|r| - 1]))
    decreases |s|
  {
    if |s| > 0 && drop(s[|s| - 1]) {
      TrimRightSpec(s[..|s| - 1], drop);
    }
  }

  /** No piece of a split holds the separator. */
  lemma {:induction false} SplitExcludes(s: string, sep: char)
    ensures forall k :: 0 <= k < |Split(s, sep)| ==> sep !in Split(s, sep)[k]
    decreases |s|
  {
    if |s| > 0 {
      SplitExcludes(s[1..], sep);
    }
  }

  /** A character absent from the text is absent from every piece of its split. */
  lemma {:induction false} SplitAbsent(s: string, sep: char, c: char)
    requires c !in s
    ensures forall k :: 0 <= k < |Split(s, sep)| ==> c !in Split(s, sep)[k]
    decreases |s|
  {
    if |s| > 0 {
      SplitAbsent(s[1..], sep, c);
    }
  }

  /** `s.replace(c, "")` drops every `c` and keeps every other character, with its multiplicity. */
  lemma {:induction false} RemoveCharSpec(s: string, c: char)
    ensures c !in RemoveChar(s, c)
    ensures forall x :: x in RemoveChar(s, c) ==> x in s
    ensures multiset(RemoveChar(s, c)) == multiset(s)[c := 0]
    decreases |s|
  {
    if |s| > 0 {
      RemoveCharSpec(s[1..], c);
      assert s == [s[0]] + s[1..];
    }
  }

  lemma {:induction false} TrimLeftSkip(a: string, b: string, drop: char -> bool)
    requires forall k :: 0 <= k < |a| ==> drop(a[k])
    ensures TrimLeft(a + b, drop) == TrimLeft(b, drop)
    decreases |a|
  {
    if |a| > 0 {
      assert (a + b)[0] == a[0];
      assert TrimLeft(a + b, drop) == TrimLeft((a + b)[1..], drop);
      assert (a + b)[1..] == a[1..] + b;
      assert forall k :: 0 <= k < |a| - 1 ==> a[1..][k] == a[k + 1];
      TrimLeftSkip(a[1..], b, drop);
    } else {
      assert a + b == b;
    }
  }

  lemma {:induction false} TrimRightSkip(a: string, b: string, drop: char -> bool)
    requires forall k :: 0 <= k < |b| ==> drop(b[k])
    ensures TrimRight(a + b, drop) == TrimRight(a, drop)
    decreases |b|
  {
    if |b| > 0 {
      assert (a + b)[|a + b| - 1] == b[|b| - 1];
      assert TrimRight(a + b, drop) == TrimRight((a + b)[..|a + b| - 1], drop);
      assert (a + b)[..|a + b| - 1] == a + b[..|b| - 1];
      assert forall k :: 0 <= k < |b| - 1 ==> b[..|b| - 1][k] == b[k];
      TrimRightSkip(a, b[..|b| - 1], drop);
    } else {
      assert a + b == a;
    }
  }

  /** A string whose ends are not whitespace is its own `strip()`. */
  lemma StripKeeps(s: string)
    requires |s| > 0 && !IsSpace(s[0]) && !IsSpace(s[|s| - 1])
    ensures Strip(s) == s
  {
  }

  /** Leading whitespace is dropped by `strip()`. */
  lemma StripLeading(a: string, s: string)
    requires forall k :: 0 <= k < |a| ==> IsSpace(a[k])
    requires |s| > 0 && !IsSpace(s[0]) && !IsSpace(s[|s| - 1])
    ensures Strip(a + s) == s
  {
    TrimLeftSkip(a, s, IsSpace);
  }

  /** After leading whitespace, a prefix that starts and ends in non-whitespace survives `strip()`. */
  lemma StripKeepsPrefix(a: string, s: string, p: string)
    requires forall k :: 0 <= k < |a| ==> IsSpace(a[k])
    requires |p| > 0 && !IsSpace(p[0]) && !IsSpace(p[|p| - 1])
    requires StartsWith(s, p)
    ensures StartsWith(Strip(a + s), p)
  {
    TrimLeftSkip(a, s, IsSpace);
    assert s[0] == p[0];
    assert TrimLeft(s, IsSpace) == s;
    var r := TrimRight(s, IsSpace);
    TrimRightSpec(s, IsSpace);
    assert s[|p| - 1] == p[|p| - 1];
    assert |r| >= |p|;
    assert r[..|p|] == s[..|p|];
  }

  lemma {:induction false} SplitNoSep(s: string, sep: char)
    requires sep !in s
    ensures Split(s, sep) == [s]
    decreases |s|
  {
    if |s| > 0 {
      SplitNoSep(s[1..], sep);
      assert [s[0]] + s[1..] == s;
    }
  }

  /** Splitting at the first separator. */
  lemma {:induction false} SplitAtSep(a: string, b: string, sep: char)
    requires sep !in a
    ensures Split(a + [sep] + b, sep) == [a] + Split(b, sep)
    decreases |a|
  {
    var s := a + [sep] + b;
    if |a| == 0 {
      assert s[1..] == b;
    } else {
      assert s[1..] == a[1..] + [sep] + b;
      SplitAtSep(a[1..], b, sep);
      assert [a[0]] + a[1..] == a;
    }
  }

  /** `sep.join(s.split(sep)) == s` */
  lemma {:induction false} JoinSplit(s: string, sep: char)
    ensures Join(Split(s, sep), sep) == s
    decreases |s|
  {
    if |s| > 0 {
      var rest := Split(s[1..], sep);
      JoinSplit(s[1..], sep);
      if s[0] == sep {
        assert Split(s, sep) == [""] + rest;
        assert ([""] + rest)[1..] == rest;
        assert [s[0]] + s[1..] == s;
      } else {
        var parts := [[s[0]] + rest[0]] + rest[1..];
        assert Split(s, sep) == parts;
        if |rest| == 1 {
          assert Join(parts, sep) == [s[0]] + rest[0];
          assert [s[0]] + s[1..] == s;
        } else {
          assert parts[1..] == rest[1..];
          assert Join(rest, sep) == rest[0] + [sep] + Join(rest[1..], sep);
          assert Join(parts, sep) == ([s[0]] + rest[0]) + [sep] + Join(rest[1..], sep);
          assert [s[0]] + s[1..] == s;
        }
      }
    }
  }

  /** `sep.join(parts).split(sep) == parts` when no part holds the separator. */
  lemma {:induction false} SplitJoin(parts: seq<string>, sep: char)
    requires |parts| > 0
    requires forall k :: 0 <= k < |parts| ==> sep !in parts[k]
    ensures Split(Join(parts, sep), sep) == parts
    decreases |parts|
  {
    if |parts| == 1 {
      SplitNoSep(parts[0], sep);
    } else {
      SplitJoin(parts[1..], sep);
      SplitAtSep(parts[0], Join(parts[1..], sep), sep);
      assert [parts[0]] + parts[1..] == parts;
    }
  }

  /** Joining two non-empty lists: one separator between the two joins. */
  lemma {:induction false} JoinConcat(a: seq<string>, b: seq<string>, sep: char)
    requires |a| > 0 && |b| > 0
    ensures Join(a + b, sep) == Join(a, sep) + [sep] + Join(b, sep)
    decreases |a|
  {
    if |a| == 1 {
      assert (a + b)[1..] == b;
    } else {
      JoinConcat(a[1..], b, sep);
      assert (a + b)[1..] == a[1..] + b;
    }
  }

  /** `s.split(sep)` has one more piece than `s` has separators. */
  lemma {:induction false} SplitCount(s: string, sep: char)
    ensures |Split(s, sep)| == multiset(s)[sep] + 1
    decreases |s|
  {
    if |s| > 0 {
      SplitCount(s[1..], sep);
      assert s == [s[0]] + s[1..];
      assert multiset(s) == multiset([s[0]]) + multiset(s[1..]);
    }
  }

  lemma Join3(a: string, b: string, c: string, sep: char)
    ensures Join([a, b, c], sep) == a + [sep] + b + [sep] + c
  {
    assert [a, b, c][1..] == [b, c];
    assert [b, c][1..] == [c];
    assert Join([b, c], sep) == b + [sep] + Join([c], sep);
  }

  /** A character in no part, other than the separator, is not in the joined string. */
  lemma {:induction false} JoinExcludes(parts: seq<string>, sep: char, c: char)
    requires c != sep
    requires forall k :: 0 <= k < |parts| ==> c !in parts[k]
    ensures c !in Join(parts, sep)
    decreases |parts|
  {
    if |parts| > 1 {
      JoinExcludes(parts[1..], sep, c);
    }
  }

  lemma {:induction false} RemoveAbsent(s: string, c: char)
    requires c !in s
    ensures RemoveChar(s, c) == s
    decreases |s|
  {
    if |s| > 0 {
      RemoveAbsent(s[1..], c);
      assert [s[0]] + s[1..] == s;
    }
  }

  /** `s.replace(pat, rep)` is the identity when the first character of `pat` never occurs. */
  lemma {:induction false} ReplaceAbsent(s: string, pat: string, rep: string)
    requires |pat| > 0 && pat[0] !in s
    ensures ReplaceAll(s, pat, rep) == s
    decreases |s|
  {
    if |s| >= |pat| {
      assert s[..|pat|] != pat by { assert s[..|pat|][0] == s[0]; }
      ReplaceAbsent(s[1..], pat, rep);
      assert [s[0]] + s[1..] == s;
    }
  }

  /** Replacing a pattern by itself changes nothing. */
  lemma {:induction false} ReplaceBySelf(s: string, pat: string)
    requires |pat| > 0
    ensures ReplaceAll(s, pat, pat) == s
    decreases |s|
  {
    if |s| >= |pat| {
      if s[..|pat|] == pat {
        ReplaceBySelf(s[|pat|..], pat);
        assert s[..|pat|] + s[|pat|..] == s;
      } else {
        ReplaceBySelf(s[1..], pat);
        assert [s[0]] + s[1..] == s;
      }
    }
  }

  lemma {:induction false} DigitsValueDecimal(n: nat)
    ensures DigitsValue(Decimal(n)) == n
    decreases n
  {
    if n >= 10 {
      var s := Decimal(n);
      DigitsValueDecimal(n / 10);
      assert s[..|s| - 1] == Decimal(n / 10);
    }
  }

  /** `int(str(n)) == n` */
  lemma ParseIntDecimal(n: nat)
    ensures ParseInt(Decimal(n)) == Some(n)
  {
    var s := Decimal(n);
    RemoveAbsent(s, '_');
    DigitsValueDecimal(n);
    assert !(s[0] == '+' || s[0] == '-') by { assert IsDigit(s[0]); }
  }
}

=== FILE: restore.dfy ===
/**
 * Restoring a backup archive onto the board. The archive's member names are
 * walked in order, skipping directory entries; for each file its directories
 * are created first (`mkpath`), then it is sent with a PUT_FILE command. The
 * chain always ends by asking the board for a fresh directory listing.
 */
module Restore {
  import opened Base
  import opened PyStr
  import opened Paths

  /** A directory entry of a zip archive: its name ends with "/". */
  predicate IsDir(name: string) {
    EndsWith(name, "/")
  }

  /** The first position at or after `from` that holds a file rather than a directory entry. */
  function NextIndex(names: seq<string>, from: nat): (r: Option<nat>)
    ensures r.Some? ==> && from <= r.value < |names|
                        && !IsDir(names[r.value])
                        && forall j :: from <= j < r.value ==> IsDir(names[j])
    ensures r.None? ==> forall j :: from <= j < |names| ==> IsDir(names[j])
    decreases |names| - from
  {
    if from >= |names| then None
    else if !IsDir(names[from]) then Some(from)
    else NextIndex(names, from + 1)
  }

  /** `files.index(f)`: the first position holding `f`. */
  function IndexOf(names: seq<string>, f: string): (i: nat)
    requires f in names
    ensures i < |names| && names[i] == f
    ensures forall j :: 0 <= j < i ==> names[j] != f
  {
    if names[0] == f then 0 else 1 + IndexOf(names[1..], f)
  }

  /** What `restore_get_next_file` gives back: a name, `None`, or a `ValueError` from `index`. */
  datatype Next = Name(name: string) | NoMore | ValueError

  /** The answer naming the first of `files`, or `NoMore` when there is none. */
  function FirstOf(files: seq<string>): Next {
    if files == [] then NoMore else Name(files[0])
  }

  /**
   * `restore_get_next_file` as written: the first file after the first
   * occurrence of `f`, or the first file of all when `f` is falsy; a name
   * the archive does not hold makes `index` raise.
   */
  function NextFile(names: seq<string>, f: Option<string>): (r: Next)
    ensures r.Name? ==> !IsDir(r.name)
    ensures r == ValueError <==> f.Some? && f.value != "" && f.value !in names
    ensures f.None? || f.value == "" ==> r == FirstOf(FilesFrom(names, 0))
    ensures f.Some? && f.value != "" && f.value in names ==>
              r == FirstOf(FilesFrom(names, IndexOf(names, f.value) + 1))
  {
    if f.None? || f.value == "" then
      FilesFromSkip(names, 0);
      match NextIndex(names, 0)
      case Some(i) => Name(names[i])
      case None => NoMore
    else if f.value !in names then ValueError
    else
      var start := IndexOf(names, f.value) + 1;
      FilesFromSkip(names, start);
      match NextIndex(names, start)
      case Some(i) => Name(names[i])
      case None => NoMore
  }

  /**
   * The cursor the restore chain needs: the first file strictly after the
   * position of the file just restored, or the first file of all.
   */
  function NextAfter(names: seq<string>, pos: Option<nat>): (r: Option<nat>)
    ensures r.Some? && pos.Some? ==> pos.value < r.value
  {
    match pos
    case None => NextIndex(names, 0)
    case Some(p) => NextIndex(names, p + 1)
  }

  /** Both cursors agree when the file just restored occurs only once in the archive. */
  lemma NextFileAgrees(names: seq<string>, p: nat)
    requires p < |names| && names[p] != ""
    requires forall j :: 0 <= j < |names| && names[j] == names[p] ==> j == p
    ensures NextFile(names, Some(names[p])) ==
            match NextAfter(names, Some(p))
            case Some(i) => Name(names[i])
            case None => NoMore
  {
    assert IndexOf(names, names[p]) == p;
  }

  /**
   * With a name that occurs twice, the as-written cursor goes back to the
   * first occurrence: after "a" comes "b", and after "b" comes "a" again, so
   * the restore chain never ends.
   */
  lemma NextFileCycles()
    ensures NextFile(["a", "b", "a"], Some("a")) == Name("b")
    ensures NextFile(["a", "b", "a"], Some("b")) == Name("a")
  {
    var names := ["a", "b", "a"];
    assert !IsDir("a") && !IsDir("b");
    assert IndexOf(names, "a") == 0;
    assert IndexOf(names, "b") == 1;
  }

  /**
   * A member named "" is falsy, so once it has been restored the as-written
   * cursor starts again from the first file of the archive, which lies at or
   * before it, where the positional cursor moves past it.
   */
  lemma EmptyNameRestarts(names: seq<string>, p: nat)
    requires p < |names| && names[p] == ""
    ensures NextIndex(names, 0).Some? && NextIndex(names, 0).value <= p
    ensures NextFile(names, Some(names[p])) == Name(names[NextIndex(names, 0).value])
  {
    assert !IsDir(names[p]);
  }

  /**
   * With the archive "a", "": after "a" comes "", and after "" comes "a"
   * again, so when both uploads succeed the restore chain never ends.
   */
  lemma EmptyNameCycles()
    ensures NextFile(["a", ""], Some("a")) == Name("")
    ensures NextFile(["a", ""], Some("")) == Name("a")
  {
    var names := ["a", ""];
    assert !IsDir("a") && !IsDir("");
    assert IndexOf(names, "a") == 0;
  }

  // ---------------------------------------------------------------------------
  // mkpath

  /** What `mkpath` leaves behind: whether it succeeded, the directories the file view knows, and the mkdir calls made. */
  datatype Mkpath = Mkpath(ok: bool, known: set<string>, mkdirs: seq<string>)

  /**
   * Walks the ancestors shallowest first: an ancestor the file view knows is
   * skipped; otherwise it is created (`mkdir`) and recorded, and the first
   * mkdir that fails ends the walk.
   */
  function MakeDirs(dirs: seq<string>, known: set<string>, fails: set<string>): (r: Mkpath)
    ensures known <= r.known
    decreases |dirs|
  {
    if |dirs| == 0 then Mkpath(true, known, [])
    else if dirs[0] in known then MakeDirs(dirs[1..], known, fails)
    else if dirs[0] in fails then Mkpath(false, known, [dirs[0]])
    else
      var rest := MakeDirs(dirs[1..], known + {dirs[0]}, fails);
      Mkpath(rest.ok, rest.known, [dirs[0]] + rest.mkdirs)
  }

  /** `mkpath(path)` against the file view's directories `known`, where mkdir of a directory in `fails` raises. */
  function MakePath(path: string, known: set<string>, fails: set<string>): Mkpath {
    MakeDirs(Ancestors(path), known, fails)
  }

  /** Pairwise different directory names. */
  predicate Distinct(dirs: seq<string>) {
    forall i, j :: 0 <= i < j < |dirs| ==> dirs[i] != dirs[j]
  }

  /** The directories of `dirs` the file view does not know, in order. */
  function Missing(dirs: seq<string>, known: set<string>): (r: seq<string>)
    ensures forall d :: d in r <==> d in dirs && d !in known
    decreases |dirs|
  {
    if |dirs| == 0 then []
    else if dirs[0] in known then Missing(dirs[1..], known)
    else [dirs[0]] + Missing(dirs[1..], known)
  }

  /**
   * `mkpath` succeeds exactly when no missing ancestor fails to be created;
   * then it has created exactly the missing ancestors, in order, and the file
   * view knows them all afterwards.
   */
  lemma {:induction false} MakeDirsSpec(dirs: seq<string>, known: set<string>, fails: set<string>)
    requires Distinct(dirs)
    ensures var r := MakeDirs(dirs, known, fails);
            && (r.ok <==> forall d :: d in dirs && d !in known ==> d !in fails)
            && (r.ok ==> r.mkdirs == Missing(dirs, known) && r.known == known + set d | d in dirs)
    decreases |dirs|
  {
    if |dirs| > 0 {
      var d := dirs[0];
      assert Distinct(dirs[1..]);
      assert forall x :: x in dirs <==> x == d || x in dirs[1..];
      if d in known {
        MakeDirsSpec(dirs[1..], known, fails);
      } else if d !in fails {
        MakeDirsSpec(dirs[1..], known + {d}, fails);
        assert d !in dirs[1..];
        var rest := MakeDirs(dirs[1..], known + {d}, fails);
        if rest.ok {
          assert Missing(dirs[1..], known + {d}) == Missing(dirs[1..], known) by {
            MissingWithout(dirs[1..], known, d);
          }
        }
      }
    }
  }

  lemma {:induction false} MissingWithout(dirs: seq<string>, known: set<string>, d: string)
    requires d !in dirs
    ensures Missing(dirs, known + {d}) == Missing(dirs, known)
    decreases |dirs|
  {
    if |dirs| > 0 {
      MissingWithout(dirs[1..], known, d);
    }
  }

  /**
   * When `mkpath` fails, only the last of its mkdir calls failed: deeper
   * ancestors are not tried.
   */
  lemma {:induction false} MakeDirsStops(dirs: seq<string>, known: set<string>, fails: set<string>)
    ensures var r := MakeDirs(dirs, known, fails);
            && (!r.ok ==> && |r.mkdirs| > 0
                          && r.mkdirs[|r.mkdirs| - 1] in fails
                          && forall k :: 0 <= k < |r.mkdirs| - 1 ==> r.mkdirs[k] !in fails)
            && (r.ok ==> forall k :: 0 <= k < |r.mkdirs| ==> r.mkdirs[k] !in fails)
    decreases |dirs|
  {
    if |dirs| > 0 {
      if dirs[0] in known {
        MakeDirsStops(dirs[1..], known, fails);
      } else if dirs[0] !in fails {
        MakeDirsStops(dirs[1..], known + {dirs[0]}, fails);
      }
    }
  }

  /** The mkdir calls name only directories being walked that the file view did not know. */
  lemma {:induction false} MakeDirsNew(dirs: seq<string>, known: set<string>, fails: set<string>)
    ensures forall d :: d in MakeDirs(dirs, known, fails).mkdirs ==> d !in known && d in dirs
    decreases |dirs|
  {
    if |dirs| > 0 {
      var later := dirs[1..];
      assert dirs == [dirs[0]] + later;
      if dirs[0] in known {
        MakeDirsNew(later, known, fails);
      } else if dirs[0] !in fails {
        MakeDirsNew(later, known + {dirs[0]}, fails);
      }
    }
  }

  /** No directory is made twice, and after a successful walk the file view knows every one made. */
  lemma {:induction false} MakeDirsFresh(dirs: seq<string>, known: set<string>, fails: set<string>)
    ensures var r := MakeDirs(dirs, known, fails);
            && Distinct(r.mkdirs)
            && (r.ok ==> forall k :: 0 <= k < |r.mkdirs| ==> r.mkdirs[k] in r.known)
    decreases |dirs|
  {
    if |dirs| > 0 {
      if dirs[0] in known {
        MakeDirsFresh(dirs[1..], known, fails);
      } else if dirs[0] !in fails {
        var d := dirs[0];
        MakeDirsFresh(dirs[1..], known + {d}, fails);
        MakeDirsNew(dirs[1..], known + {d}, fails);
        var rest := MakeDirs(dirs[1..], known + {d}, fails);
        assert forall k :: 0 <= k < |rest.mkdirs| ==> rest.mkdirs[k] != d;
        var all := [d] + rest.mkdirs;
        assert forall k :: 1 <= k < |all| ==> all[k] == rest.mkdirs[k - 1];
      }
    }
  }

  /** `mkpath` of a name with no directory part creates nothing and succeeds. */
  lemma MakePathFlat(path: string, known: set<string>, fails: set<string>)
    requires '/' !in Unrooted(path)
    ensures MakePath(path, known, fails) == Mkpath(true, known, [])
  {
    NoSlashNoAncestors(path);
  }

  /** `mkpath` succeeds exactly when every missing ancestor can be created, and then creates exactly those, shallowest first. */
  lemma MakePathSpec(path: string, known: set<string>, fails: set<string>)
    ensures var r := MakePath(path, known, fails);
            var anc := Ancestors(path);
            && (r.ok <==> forall d :: d in anc && d !in known ==> d !in fails)
            && (r.ok ==> r.mkdirs == Missing(anc, known) && r.known == known + set d | d in anc)
  {
    AncestorsDistinct(path);
    MakeDirsSpec(Ancestors(path), known, fails);
  }

  lemma SplitExample()
    ensures Split("a/b/c.py", '/') == ["a", "b", "c.py"]
  {
    assert "a/b/c.py" == "a" + ['/'] + "b/c.py";
    SplitAtSep("a", "b/c.py", '/');
    SplitTailExample();
    assert Split("a/b/c.py", '/') == ["a"] + ["b", "c.py"];
  }

  lemma SplitTailExample()
    ensures Split("b/c.py", '/') == ["b", "c.py"]
  {
    assert "b/c.py" == "b" + ['/'] + "c.py";
    SplitAtSep("b", "c.py", '/');
    SplitNoSep("c.py", '/');
    assert Split("b/c.py", '/') == ["b"] + ["c.py"];
  }

  /** The ancestors of a file two directories deep. */
  lemma AncestorsExample()
    ensures Ancestors("a/b/c.py") == ["/a", "/a/b"]
  {
    DirPartsExample();
    PrefixesExample();
  }

  lemma DirPartsExample()
    ensures DirParts("a/b/c.py") == ["a", "b"]
  {
    SplitExample();
    assert Unrooted("a/b/c.py") == "a/b/c.py";
  }

  lemma PrefixesExample()
    ensures Prefixes(["a", "b"]) == ["/a", "/a/b"]
  {
    var anc := Prefixes(["a", "b"]);
    assert ["a", "b"][..1] == ["a"];
    assert ["a", "b"][..2] == ["a", "b"];
    assert Join(["a"], '/') == "a";
    assert ["a", "b"][1..] == ["b"];
    assert Join(["a", "b"], '/') == "a" + ['/'] + "b";
    assert "a" + ['/'] + "b" == "a/b";
    assert anc[0] == "/a";
    assert anc[1] == "/a/b";
  }

  /** Restoring "a/b/c.py" onto an empty board creates "/a" and then "/a/b". */
  lemma MakePathExample()
    ensures MakePath("a/b/c.py", {}, {}) == Mkpath(true, {"/a", "/a/b"}, ["/a", "/a/b"])
  {
    AncestorsExample();
    MakeDirsExample();
  }

  lemma MakeDirsExample()
    ensures MakeDirs(["/a", "/a/b"], {}, {}) == Mkpath(true, {"/a", "/a/b"}, ["/a", "/a/b"])
  {
    assert ["/a", "/a/b"][1..] == ["/a/b"];
    assert ["/a/b"][1..] == [];
  }

  // ---------------------------------------------------------------------------
  // The restore chain

  /** What the restore asks of the board, in order. */
  datatype Command = Mkdir(path: string) | PutFile(name: string, data: Bytes) | ListDir

  /**
   * What the collaborators answer during a restore.
   * - `names`: the archive's member names, in order;
   * - `contents`: the bytes read for a member; a name missing here is a
   *   read that raises;
   * - `known`: the directories the file view knows at the start;
   * - `mkdirFails`: directories whose mkdir raises;
   * - `putFails`: files whose PUT_FILE completes with failure.
   */
  datatype RestoreEnv = RestoreEnv(names: seq<string>, contents: map<string, Bytes>, known: set<string>,
                                   mkdirFails: set<string>, putFails: set<string>)

  /** How the restore ended (`restore_done(ok)`) and every command it issued. */
  datatype Restored = Restored(ok: bool, commands: seq<Command>)

  function MkdirCommands(dirs: seq<string>): (r: seq<Command>)
    ensures |r| == |dirs|
    ensures forall k :: 0 <= k < |dirs| ==> r[k] == Mkdir(dirs[k])
  {
    seq(|dirs|, k requires 0 <= k < |dirs| => Mkdir(dirs[k]))
  }

  /** The commands of a step whose member could be read: its mkdirs, then its PUT_FILE. */
  function Upload(env: RestoreEnv, f: string, dirs: seq<string>): seq<Command>
    requires f in env.contents
  {
    MkdirCommands(dirs) + [PutFile(f, env.contents[f])]
  }

  /** `restore_done`: the status is shown and the file view is reloaded. */
  function Done(ok: bool, commands: seq<Command>): Restored {
    Restored(ok, commands + [ListDir])
  }

  /**
   * `restore_file` for the member at position `i`, followed by the chain
   * `on_restore_file` continues with, using the positional cursor.
   */
  function RestoreFrom(env: RestoreEnv, i: nat, known: set<string>): (r: Restored)
    requires i < |env.names|
    decreases |env.names| - i
  {
    var f := env.names[i];
    var m := MakePath(f, known, env.mkdirFails);
    var made := MkdirCommands(m.mkdirs);
    if !m.ok then Done(false, made)
    else if f !in env.contents then Done(false, made)
    else
      var sent := Upload(env, f, m.mkdirs);
      if f in env.putFails then Done(false, sent)
      else
        match NextAfter(env.names, Some(i))
        case None => Done(true, sent)
        case Some(j) =>
          var rest := RestoreFrom(env, j, m.known);
          Restored(rest.ok, sent + rest.commands)
  }

  /**
   * The whole restore (`on_restore`): an archive that cannot be opened, or
   * whose first file is missing or has a falsy name, ends the restore at once.
   */
  function Run(env: RestoreEnv, openFails: bool): Restored {
    if openFails then Done(false, [])
    else
      match NextAfter(env.names, None)
      case None => Done(true, [])
      case Some(i) => if env.names[i] == "" then Done(true, []) else RestoreFrom(env, i, env.known)
  }

  /** The names of the PUT_FILE commands, in order. */
  function Sent(commands: seq<Command>): seq<string> {
    if |commands| == 0 then []
    else if commands[0].PutFile? then [commands[0].name] + Sent(commands[1..])
    else Sent(commands[1..])
  }

  /** The file members at or after position `i`, in order. */
  function FilesFrom(names: seq<string>, i: nat): seq<string>
    decreases |names| - i
  {
    if i >= |names| then []
    else if IsDir(names[i]) then FilesFrom(names, i + 1)
    else [names[i]] + FilesFrom(names, i + 1)
  }

  /** Exactly one directory listing, and it is the last command. */
  predicate EndsWithListing(commands: seq<Command>) {
    |commands| > 0 && commands[|commands| - 1] == ListDir
    && forall k :: 0 <= k < |commands| - 1 ==> commands[k] != ListDir
  }

  lemma {:induction false} SentConcat(a: seq<Command>, b: seq<Command>)
    ensures Sent(a + b) == Sent(a) + Sent(b)
    decreases |a|
  {
    if |a| == 0 {
      assert a + b == b;
    } else {
      assert (a + b)[0] == a[0];
      assert (a + b)[1..] == a[1..] + b;
      SentConcat(a[1..], b);
    }
  }

  lemma {:induction false} SentMkdirs(dirs: seq<string>)
    ensures Sent(MkdirCommands(dirs)) == []
    decreases |dirs|
  {
    if |dirs| > 0 {
      assert MkdirCommands(dirs)[1..] == MkdirCommands(dirs[1..]);
      SentMkdirs(dirs[1..]);
    }
  }

  /** Skipping directory entries before the next file. */
  lemma {:induction false} FilesFromSkip(names: seq<string>, from: nat)
    ensures match NextIndex(names, from)
            case None => FilesFrom(names, from) == []
            case Some(i) => FilesFrom(names, from) == [names[i]] + FilesFrom(names, i + 1)
    decreases |names| - from
  {
    if from < |names| && IsDir(names[from]) {
      FilesFromSkip(names, from + 1);
    }
  }

  /** The files from a file position on: that file, then the files from the next file position. */
  lemma FilesFromStep(names: seq<string>, i: nat)
    requires i < |names| && !IsDir(names[i])
    ensures match NextIndex(names, i + 1)
            case None => FilesFrom(names, i) == [names[i]]
            case Some(j) => FilesFrom(names, i) == [names[i]] + FilesFrom(names, j)
  {
    FilesFromSkip(names, i + 1);
    match NextIndex(names, i + 1)
    case None =>
    case Some(j) =>
      assert FilesFrom(names, j) == [names[j]] + FilesFrom(names, j + 1);
  }

  predicate NoListing(commands: seq<Command>) {
    forall k :: 0 <= k < |commands| ==> commands[k] != ListDir
  }

  /** Every PUT_FILE carries the bytes read from the archive for its name. */
  predicate Carries(env: RestoreEnv, commands: seq<Command>) {
    forall k :: 0 <= k < |commands| && commands[k].PutFile? ==>
      commands[k].name in env.contents && commands[k].data == env.contents[commands[k].name]
  }

  lemma CarriesConcat(env: RestoreEnv, a: seq<Command>, b: seq<Command>)
    requires Carries(env, a) && Carries(env, b)
    ensures Carries(env, a + b)
  {
    forall k | 0 <= k < |a + b| && (a + b)[k].PutFile?
      ensures (a + b)[k].name in env.contents && (a + b)[k].data == env.contents[(a + b)[k].name]
    {
      if k >= |a| {
        assert (a + b)[k] == b[k - |a|];
      }
    }
  }

  /**
   * The step for file `f` goes through when the file view knows the
   * directories `known`: every missing ancestor can be created, the member
   * can be read, and its upload succeeds.
   */
  predicate Restorable(env: RestoreEnv, known: set<string>, f: string) {
    && (forall d :: d in Ancestors(f) && d !in known ==> d !in env.mkdirFails)
    && f in env.contents && f !in env.putFails
  }

  /** `restore_done` after commands without a listing. */
  lemma DoneSpec(ok: bool, commands: seq<Command>)
    requires NoListing(commands)
    ensures EndsWithListing(Done(ok, commands).commands)
    ensures Sent(Done(ok, commands).commands) == Sent(commands)
  {
    SentConcat(commands, [ListDir]);
  }

  lemma ListingAfter(pre: seq<Command>, commands: seq<Command>)
    requires NoListing(pre) && EndsWithListing(commands)
    ensures EndsWithListing(pre + commands)
  {
    var all := pre + commands;
    forall k | 0 <= k < |all| - 1 ensures all[k] != ListDir {
      if k >= |pre| {
        assert all[k] == commands[k - |pre|];
      }
    }
  }

  lemma PrefixCons(f: string, a: seq<string>, b: seq<string>)
    requires a <= b
    ensures [f] + a <= [f] + b
  {
    assert ([f] + b)[..|a| + 1] == [f] + b[..|a|];
  }

  /** A restore step that stops before or at the PUT_FILE sends at most that one file. */
  lemma StopsAt(env: RestoreEnv, i: nat, known: set<string>, m: Mkpath)
    requires i < |env.names|
    requires m == MakePath(env.names[i], known, env.mkdirFails)
    requires !m.ok || env.names[i] !in env.contents || env.names[i] in env.putFails
    ensures var r := RestoreFrom(env, i, known);
            && !r.ok
            && EndsWithListing(r.commands)
            && Sent(r.commands) <= [env.names[i]]
  {
    var f := env.names[i];
    var made := MkdirCommands(m.mkdirs);
    SentMkdirs(m.mkdirs);
    if !m.ok || f !in env.contents {
      assert RestoreFrom(env, i, known) == Done(false, made);
      DoneSpec(false, made);
    } else {
      UploadFacts(env, f, m.mkdirs);
      assert RestoreFrom(env, i, known) == Done(false, Upload(env, f, m.mkdirs));
      DoneSpec(false, Upload(env, f, m.mkdirs));
    }
  }

  /** What the commands of a step that read its member consist of. */
  lemma UploadFacts(env: RestoreEnv, f: string, dirs: seq<string>)
    requires f in env.contents
    ensures var u := Upload(env, f, dirs);
            && NoListing(u) && Sent(u) == [f] && Made(u) == dirs && Carries(env, u)
  {
    var made := MkdirCommands(dirs);
    var put := PutFile(f, env.contents[f]);
    SentMkdirs(dirs);
    SentConcat(made, [put]);
    assert Sent([put]) == [f];
    MadeMkdirs(dirs);
    MadeConcat(made, [put]);
    assert Made([put]) == [];
  }

  /** A step whose file went through and is the last file: its commands, then the listing. */
  lemma ContinuesLast(env: RestoreEnv, i: nat, known: set<string>, m: Mkpath)
    requires i < |env.names|
    requires m == MakePath(env.names[i], known, env.mkdirFails)
    requires m.ok && env.names[i] in env.contents && env.names[i] !in env.putFails
    requires NextAfter(env.names, Some(i)).None?
    ensures RestoreFrom(env, i, known) == Done(true, Upload(env, env.names[i], m.mkdirs))
  {
  }

  /** A step whose file went through, followed by the file at `j`: its commands, then the rest of the chain. */
  lemma ContinuesTo(env: RestoreEnv, i: nat, known: set<string>, m: Mkpath, j: nat)
    requires i < |env.names|
    requires m == MakePath(env.names[i], known, env.mkdirFails)
    requires m.ok && env.names[i] in env.contents && env.names[i] !in env.putFails
    requires NextAfter(env.names, Some(i)) == Some(j)
    ensures j < |env.names|
    ensures RestoreFrom(env, i, known)
              == Restored(RestoreFrom(env, j, m.known).ok, Upload(env, env.names[i], m.mkdirs) + RestoreFrom(env, j, m.known).commands)
  {
  }

  /** Every one of `files` goes through, the file view knowing `known`. */
  predicate AllRestorable(env: RestoreEnv, known: set<string>, files: seq<string>)
    decreases |files|
  {
    |files| == 0 || (Restorable(env, known, files[0]) && AllRestorable(env, known, files[1..]))
  }

  lemma AllRestorableCons(env: RestoreEnv, known: set<string>, f: string, files: seq<string>)
    ensures AllRestorable(env, known, [f] + files) <==> Restorable(env, known, f) && AllRestorable(env, known, files)
  {
    assert ([f] + files)[1..] == files;
  }

  lemma {:induction false} AllRestorableMeans(env: RestoreEnv, known: set<string>, files: seq<string>)
    ensures AllRestorable(env, known, files) <==> forall g :: g in files ==> Restorable(env, known, g)
    decreases |files|
  {
    if |files| > 0 {
      AllRestorableMeans(env, known, files[1..]);
      assert forall g :: g in files <==> g == files[0] || g in files[1..];
    }
  }

  /** Once the directories of a step that went through are known, later steps go through exactly as before. */
  lemma {:induction false} RestorableWiden(env: RestoreEnv, known: set<string>, made: seq<string>, files: seq<string>)
    requires forall d :: d in made && d !in known ==> d !in env.mkdirFails
    ensures AllRestorable(env, known + (set d | d in made), files) <==> AllRestorable(env, known, files)
    decreases |files|
  {
    if |files| > 0 {
      RestorableWiden(env, known, made, files[1..]);
      var wider := known + (set d | d in made);
      assert Restorable(env, wider, files[0]) <==> Restorable(env, known, files[0]);
    }
  }

  /** A restore step that stops fails, and its file does not go through. */
  lemma OkStops(env: RestoreEnv, i: nat, known: set<string>, m: Mkpath)
    requires i < |env.names|
    requires m == MakePath(env.names[i], known, env.mkdirFails)
    requires !m.ok || env.names[i] !in env.contents || env.names[i] in env.putFails
    ensures !RestoreFrom(env, i, known).ok && !Restorable(env, known, env.names[i])
  {
    StopsAt(env, i, known, m);
    MakePathSpec(env.names[i], known, env.mkdirFails);
  }

  /** The last file of the archive went through: the restore succeeds, as that file goes through. */
  lemma OkLast(env: RestoreEnv, i: nat, known: set<string>, m: Mkpath)
    requires i < |env.names|
    requires m == MakePath(env.names[i], known, env.mkdirFails)
    requires m.ok && env.names[i] in env.contents && env.names[i] !in env.putFails && !IsDir(env.names[i])
    requires NextAfter(env.names, Some(i)).None?
    ensures RestoreFrom(env, i, known).ok && AllRestorable(env, known, FilesFrom(env.names, i))
  {
    var f := env.names[i];
    MakePathSpec(f, known, env.mkdirFails);
    FilesFromStep(env.names, i);
    ContinuesLast(env, i, known, m);
  }

  /** A file went through and the file at `j` follows: the restore succeeds exactly when the rest does. */
  lemma OkNext(env: RestoreEnv, i: nat, known: set<string>, m: Mkpath, j: nat)
    requires i < |env.names|
    requires m == MakePath(env.names[i], known, env.mkdirFails)
    requires m.ok && env.names[i] in env.contents && env.names[i] !in env.putFails && !IsDir(env.names[i])
    requires NextAfter(env.names, Some(i)) == Some(j)
    requires RestoreFrom(env, j, m.known).ok <==> AllRestorable(env, m.known, FilesFrom(env.names, j))
    ensures RestoreFrom(env, i, known).ok <==> AllRestorable(env, known, FilesFrom(env.names, i))
  {
    FilesNext(env.names, i, j);
    var later := FilesFrom(env.names, j);
    GoesThrough(env, known, env.names[i], m, later);
    ContinuesTo(env, i, known, m, j);
    assert RestoreFrom(env, i, known).ok == RestoreFrom(env, j, m.known).ok;
  }

  /** A file that goes through leaves the later files going through exactly as they would have. */
  lemma GoesThrough(env: RestoreEnv, known: set<string>, f: string, m: Mkpath, later: seq<string>)
    requires m == MakePath(f, known, env.mkdirFails)
    requires m.ok && f in env.contents && f !in env.putFails
    ensures AllRestorable(env, known, [f] + later) <==> AllRestorable(env, m.known, later)
  {
    AllRestorableCons(env, known, f, later);
    MakePathSpec(f, known, env.mkdirFails);
    assert Restorable(env, known, f);
    RestorableWiden(env, known, Ancestors(f), later);
  }

  /** The restore from position `i` succeeds exactly when every file from there on goes through. */
  lemma {:induction false} RestoreOk(env: RestoreEnv, i: nat, known: set<string>)
    requires i < |env.names| && !IsDir(env.names[i])
    ensures RestoreFrom(env, i, known).ok <==> AllRestorable(env, known, FilesFrom(env.names, i))
    decreases |env.names| - i
  {
    var f := env.names[i];
    var m := MakePath(f, known, env.mkdirFails);
    if !m.ok || f !in env.contents || f in env.putFails {
      OkStops(env, i, known, m);
      assert FilesFrom(env.names, i) == [f] + FilesFrom(env.names, i + 1);
    } else {
      match NextAfter(env.names, Some(i))
      case None =>
        OkLast(env, i, known, m);
      case Some(j) =>
        RestoreOk(env, j, m.known);
        OkNext(env, i, known, m, j);
    }
  }

  /** Every upload of the restore from position `i` carries the member's bytes. */
  lemma {:induction false} RestoreCarries(env: RestoreEnv, i: nat, known: set<string>)
    requires i < |env.names|
    ensures Carries(env, RestoreFrom(env, i, known).commands)
    decreases |env.names| - i
  {
    var f := env.names[i];
    var m := MakePath(f, known, env.mkdirFails);
    var made := MkdirCommands(m.mkdirs);
    assert Carries(env, made);
    assert Carries(env, [ListDir]);
    if !m.ok || f !in env.contents {
      CarriesConcat(env, made, [ListDir]);
    } else {
      var sent := Upload(env, f, m.mkdirs);
      UploadFacts(env, f, m.mkdirs);
      if f in env.putFails {
        CarriesConcat(env, sent, [ListDir]);
      } else {
        match NextAfter(env.names, Some(i))
        case None =>
          ContinuesLast(env, i, known, m);
          CarriesConcat(env, sent, [ListDir]);
        case Some(j) =>
          ContinuesTo(env, i, known, m, j);
          RestoreCarries(env, j, m.known);
          CarriesConcat(env, sent, RestoreFrom(env, j, m.known).commands);
      }
    }
  }

  /**
   * From position `i` on: the restore ends with one directory listing; every
   * upload carries the member's bytes; it succeeds exactly when every file
   * from `i` on goes through, and then it has sent each of them, in archive
   * order; when it fails it has sent a prefix of them.
   */
  lemma {:induction false} RestoreFromSpec(env: RestoreEnv, i: nat, known: set<string>)
    requires i < |env.names| && !IsDir(env.names[i])
    ensures var r := RestoreFrom(env, i, known);
            && EndsWithListing(r.commands)
            && Carries(env, r.commands)
            && (r.ok <==> forall g :: g in FilesFrom(env.names, i) ==> Restorable(env, known, g))
            && (r.ok ==> Sent(r.commands) == FilesFrom(env.names, i))
            && (!r.ok ==> Sent(r.commands) <= FilesFrom(env.names, i))
    decreases |env.names| - i
  {
    RestoreOk(env, i, known);
    AllRestorableMeans(env, known, FilesFrom(env.names, i));
    RestoreCarries(env, i, known);
    RestoreFromListing(env, i, known);
  }

  /** The names sent by a restore from position `i`: all files from there on, or a prefix of them on failure. */
  predicate SentFiles(env: RestoreEnv, i: nat, r: Restored) {
    && (r.ok ==> Sent(r.commands) == FilesFrom(env.names, i))
    && (!r.ok ==> Sent(r.commands) <= FilesFrom(env.names, i))
  }

  /** The listing and the names sent when the file at `i` is the last and went through. */
  lemma ListingLast(env: RestoreEnv, i: nat, known: set<string>, m: Mkpath)
    requires i < |env.names|
    requires m == MakePath(env.names[i], known, env.mkdirFails)
    requires m.ok && env.names[i] in env.contents && env.names[i] !in env.putFails && !IsDir(env.names[i])
    requires NextAfter(env.names, Some(i)).None?
    ensures EndsWithListing(RestoreFrom(env, i, known).commands) && SentFiles(env, i, RestoreFrom(env, i, known))
  {
    var f := env.names[i];
    var sent := Upload(env, f, m.mkdirs);
    UploadFacts(env, f, m.mkdirs);
    FilesFromStep(env.names, i);
    ContinuesLast(env, i, known, m);
    DoneSpec(true, sent);
  }

  /** The listing and the names sent when the file at `i` went through and the file at `j` follows. */
  lemma ListingNext(env: RestoreEnv, i: nat, known: set<string>, m: Mkpath, j: nat)
    requires i < |env.names|
    requires m == MakePath(env.names[i], known, env.mkdirFails)
    requires m.ok && env.names[i] in env.contents && env.names[i] !in env.putFails && !IsDir(env.names[i])
    requires NextAfter(env.names, Some(i)) == Some(j)
    requires EndsWithListing(RestoreFrom(env, j, m.known).commands) && SentFiles(env, j, RestoreFrom(env, j, m.known))
    ensures EndsWithListing(RestoreFrom(env, i, known).commands) && SentFiles(env, i, RestoreFrom(env, i, known))
  {
    var f := env.names[i];
    var sent := Upload(env, f, m.mkdirs);
    var rest := RestoreFrom(env, j, m.known);
    ContinuesTo(env, i, known, m, j);
    UploadNext(env, i, m.mkdirs, j);
    ConsListing(f, sent, rest, FilesFrom(env.names, j));
  }

  /** The upload of the file at `i`, followed by the file at `j`. */
  lemma UploadNext(env: RestoreEnv, i: nat, dirs: seq<string>, j: nat)
    requires i < |env.names| && env.names[i] in env.contents && !IsDir(env.names[i])
    requires NextAfter(env.names, Some(i)) == Some(j)
    ensures NoListing(Upload(env, env.names[i], dirs)) && Sent(Upload(env, env.names[i], dirs)) == [env.names[i]]
    ensures FilesFrom(env.names, i) == [env.names[i]] + FilesFrom(env.names, j)
  {
    UploadFacts(env, env.names[i], dirs);
    FilesNext(env.names, i, j);
  }

  /** The files from a file on are that file, then the files from the next one on. */
  lemma FilesNext(names: seq<string>, i: nat, j: nat)
    requires i < |names| && !IsDir(names[i])
    requires NextAfter(names, Some(i)) == Some(j)
    ensures FilesFrom(names, i) == [names[i]] + FilesFrom(names, j)
  {
    assert NextIndex(names, i + 1) == Some(j);
    FilesFromStep(names, i);
  }

  /** One uploaded file in front of a restore that ends with the listing and sends `later`. */
  lemma ConsListing(f: string, sent: seq<Command>, rest: Restored, later: seq<string>)
    requires NoListing(sent) && Sent(sent) == [f]
    requires EndsWithListing(rest.commands)
    requires rest.ok ==> Sent(rest.commands) == later
    requires !rest.ok ==> Sent(rest.commands) <= later
    ensures EndsWithListing(sent + rest.commands)
    ensures rest.ok ==> Sent(sent + rest.commands) == [f] + later
    ensures !rest.ok ==> Sent(sent + rest.commands) <= [f] + later
  {
    ListingAfter(sent, rest.commands);
    SentConcat(sent, rest.commands);
    if !rest.ok {
      PrefixCons(f, Sent(rest.commands), later);
    }
  }

  /** The listing and the names sent, from position `i` on. */
  lemma {:induction false} RestoreFromListing(env: RestoreEnv, i: nat, known: set<string>)
    requires i < |env.names| && !IsDir(env.names[i])
    ensures EndsWithListing(RestoreFrom(env, i, known).commands) && SentFiles(env, i, RestoreFrom(env, i, known))
    decreases |env.names| - i
  {
    var f := env.names[i];
    var m := MakePath(f, known, env.mkdirFails);
    if !m.ok || f !in env.contents || f in env.putFails {
      StopsAt(env, i, known, m);
      assert FilesFrom(env.names, i) == [f] + FilesFrom(env.names, i + 1);
      PrefixCons(f, [], FilesFrom(env.names, i + 1));
    } else {
      match NextAfter(env.names, Some(i))
      case None =>
        ListingLast(env, i, known, m);
      case Some(j) =>
        RestoreFromListing(env, j, m.known);
        ListingNext(env, i, known, m, j);
    }
  }

  /** The directories created, in order. */
  function Made(commands: seq<Command>): seq<string> {
    if |commands| == 0 then []
    else if commands[0].Mkdir? then [commands[0].path] + Made(commands[1..])
    else Made(commands[1..])
  }

  lemma {:induction false} MadeConcat(a: seq<Command>, b: seq<Command>)
    ensures Made(a + b) == Made(a) + Made(b)
    decreases |a|
  {
    if |a| == 0 {
      assert a + b == b;
    } else {
      assert (a + b)[0] == a[0];
      assert (a + b)[1..] == a[1..] + b;
      MadeConcat(a[1..], b);
    }
  }

  lemma {:induction false} MadeMkdirs(dirs: seq<string>)
    ensures Made(MkdirCommands(dirs)) == dirs
    decreases |dirs|
  {
    if |dirs| > 0 {
      assert MkdirCommands(dirs)[1..] == MkdirCommands(dirs[1..]);
      MadeMkdirs(dirs[1..]);
    }
  }

  /** A restore step that stops creates only the directories of its own `mkpath`. */
  lemma MadeStops(env: RestoreEnv, i: nat, known: set<string>, m: Mkpath)
    requires i < |env.names|
    requires m == MakePath(env.names[i], known, env.mkdirFails)
    requires !m.ok || env.names[i] !in env.contents || env.names[i] in env.putFails
    ensures Made(RestoreFrom(env, i, known).commands) == m.mkdirs
  {
    var f := env.names[i];
    var made := MkdirCommands(m.mkdirs);
    MadeMkdirs(m.mkdirs);
    if !m.ok || f !in env.contents {
      assert RestoreFrom(env, i, known) == Done(false, made);
      MadeConcat(made, [ListDir]);
    } else {
      UploadFacts(env, f, m.mkdirs);
      assert RestoreFrom(env, i, known) == Done(false, Upload(env, f, m.mkdirs));
      MadeConcat(Upload(env, f, m.mkdirs), [ListDir]);
    }
  }

  /** What a step that went through creates: its own directories, then those of the rest of the chain. */
  lemma MadeContinues(env: RestoreEnv, i: nat, known: set<string>, m: Mkpath)
    requires i < |env.names|
    requires m == MakePath(env.names[i], known, env.mkdirFails)
    requires m.ok && env.names[i] in env.contents && env.names[i] !in env.putFails
    ensures match NextAfter(env.names, Some(i))
            case None => Made(RestoreFrom(env, i, known).commands) == m.mkdirs
            case Some(j) => Made(RestoreFrom(env, i, known).commands) == m.mkdirs + Made(RestoreFrom(env, j, m.known).commands)
  {
    var f := env.names[i];
    var sent := Upload(env, f, m.mkdirs);
    UploadFacts(env, f, m.mkdirs);
    match NextAfter(env.names, Some(i))
    case None =>
      ContinuesLast(env, i, known, m);
      MadeConcat(sent, [ListDir]);
    case Some(j) =>
      ContinuesTo(env, i, known, m, j);
      MadeConcat(sent, RestoreFrom(env, j, m.known).commands);
  }

  /** Two fresh runs of directory names, the second avoiding everything the first made known, stay fresh together. */
  lemma FreshAppend(a: seq<string>, b: seq<string>, known: set<string>, wider: set<string>)
    requires Distinct(a) && Distinct(b)
    requires known <= wider
    requires forall k :: 0 <= k < |a| ==> a[k] !in known && a[k] in wider
    requires forall k :: 0 <= k < |b| ==> b[k] !in wider
    ensures Distinct(a + b) && forall k :: 0 <= k < |a + b| ==> (a + b)[k] !in known
  {
    var ab := a + b;
    forall x, y | 0 <= x < y < |ab| ensures ab[x] != ab[y] {
      if y >= |a| {
        assert ab[y] == b[y - |a|];
        if x < |a| {
          assert ab[x] == a[x];
        } else {
          assert ab[x] == b[x - |a|];
        }
      }
    }
    forall k | 0 <= k < |ab| ensures ab[k] !in known {
      if k >= |a| {
        assert ab[k] == b[k - |a|];
      }
    }
  }

  /**
   * A restore never creates a directory twice, and never one the file view
   * already knew when the step began.
   */
  lemma {:induction false} RestoreMakesFresh(env: RestoreEnv, i: nat, known: set<string>)
    requires i < |env.names|
    ensures var made := Made(RestoreFrom(env, i, known).commands);
            && Distinct(made)
            && forall k :: 0 <= k < |made| ==> made[k] !in known
    decreases |env.names| - i
  {
    var f := env.names[i];
    var m := MakePath(f, known, env.mkdirFails);
    MakeDirsStops(Ancestors(f), known, env.mkdirFails);
    MakeDirsNew(Ancestors(f), known, env.mkdirFails);
    MakeDirsFresh(Ancestors(f), known, env.mkdirFails);
    if !m.ok || f !in env.contents || f in env.putFails {
      MadeStops(env, i, known, m);
    } else if NextAfter(env.names, Some(i)).Some? {
      MadeContinues(env, i, known, m);
      var j := NextAfter(env.names, Some(i)).value;
      RestoreMakesFresh(env, j, m.known);
      var later := Made(RestoreFrom(env, j, m.known).commands);
      assert forall k :: 0 <= k < |later| ==> later[k] !in m.known;
      FreshAppend(m.mkdirs, later, known, m.known);
    } else {
      MadeContinues(env, i, known, m);
    }
  }

  /** Whatever the archive holds, the whole restore ends with exactly one directory listing. */
  lemma RunEndsWithListing(env: RestoreEnv, openFails: bool)
    ensures EndsWithListing(Run(env, openFails).commands)
  {
    if openFails {
      DoneSpec(false, []);
    } else {
      match NextAfter(env.names, None)
      case None =>
        DoneSpec(true, []);
      case Some(i) =>
        if env.names[i] == "" {
          DoneSpec(true, []);
        } else {
          RestoreFromListing(env, i, env.known);
        }
    }
  }

  /**
   * The whole restore: it ends with exactly one directory listing; every
   * upload carries the member's bytes; an archive that opens is restored
   * successfully exactly when every file in it goes through, and then every
   * file was sent once, in archive order; when it fails a prefix of them
   * was; an archive that cannot be opened sends nothing but the listing.
   */
  lemma RunSpec(env: RestoreEnv, openFails: bool)
    requires "" !in env.names
    ensures var r := Run(env, openFails);
            && EndsWithListing(r.commands)
            && Carries(env, r.commands)
            && (!openFails ==> (r.ok <==> forall g :: g in FilesFrom(env.names, 0) ==> Restorable(env, env.known, g)))
            && (r.ok ==> Sent(r.commands) == FilesFrom(env.names, 0))
            && (!r.ok ==> Sent(r.commands) <= FilesFrom(env.names, 0))
            && (openFails ==> r == Restored(false, [ListDir]))
  {
    FilesFromSkip(env.names, 0);
    if openFails {
      DoneSpec(false, []);
    } else {
      match NextAfter(env.names, None)
      case None =>
        DoneSpec(true, []);
      case Some(i) =>
        assert env.names[i] != "";
        RestoreFromSpec(env, i, env.known);
        assert FilesFrom(env.names, 0) == FilesFrom(env.names, i);
    }
  }

  /**
   * The positional cursor moves past a member named "": the archive "a", ""
   * is restored with both uploads, in order, and the restore ends.
   */
  lemma EmptyNameEnds(data: Bytes)
    ensures var r := Run(RestoreEnv(["a", ""], map["a" := data, "" := data], {}, {}, {}), false);
            r.ok && Sent(r.commands) == ["a", ""]
  {
    var env := RestoreEnv(["a", ""], map["a" := data, "" := data], {}, {}, {});
    assert !IsDir("a") && !IsDir("");
    assert NextIndex(env.names, 0) == Some(0);
    assert Run(env, false) == RestoreFrom(env, 0, {});
    assert FilesFrom(env.names, 2) == [];
    assert FilesFrom(env.names, 0) == ["a", ""];
    NoSlashNoAncestors("a");
    NoSlashNoAncestors("");
    assert Restorable(env, {}, "a") && Restorable(env, {}, "");
    RestoreFromSpec(env, 0, {});
  }

  // ---------------------------------------------------------------------------
  // The archive attribute as written

  /**
   * How `on_restore` ends as written. The window assigns its archive
   * attribute only once an archive has opened, so `restore_done` raises
   * `AttributeError` at `if self.zip` when no archive was opened earlier in
   * the session: after the status line, before the listing. The exception
   * escapes the slot, so neither the reload nor the re-enabling of the UI
   * that the listing's completion brings happens.
   */
  datatype Ending = Finished(result: Restored) | AttributeError(ok: bool, commands: seq<Command>)

  /** The commands an ending issued. */
  function Issued(e: Ending): seq<Command> {
    match e
    case Finished(r) => r.commands
    case AttributeError(_, commands) => commands
  }

  /**
   * The archives the as-written cursor walks without cycling: no name occurs
   * twice, and "" occurs at most as the first file entry, where `on_restore`
   * takes it for "no file" and ends at once.
   */
  predicate Acyclic(names: seq<string>) {
    && Distinct(names)
    && forall k :: 0 <= k < |names| && names[k] == "" ==> NextIndex(names, 0) == Some(k)
  }

  /**
   * On such an archive the as-written cursor, fed any restored name other
   * than "", answers what the positional cursor answers.
   */
  lemma AcyclicCursorAgrees(names: seq<string>, p: nat)
    requires Acyclic(names) && p < |names| && names[p] != ""
    ensures NextFile(names, Some(names[p])) ==
            match NextAfter(names, Some(p))
            case Some(i) => Name(names[i])
            case None => NoMore
  {
    NextFileAgrees(names, p);
  }

  /** The two archives the as-written cursor cycles on are not acyclic. */
  lemma CyclingArchives()
    ensures !Acyclic(["a", "b", "a"]) && !Acyclic(["a", ""])
  {
    DuplicateCycles();
    LateEmptyCycles();
  }

  lemma DuplicateCycles()
    ensures !Acyclic(["a", "b", "a"])
  {
    var names := ["a", "b", "a"];
    assert names[0] == names[2];
    assert !Distinct(names);
  }

  lemma LateEmptyCycles()
    ensures !Acyclic(["a", ""])
  {
    var names := ["a", ""];
    assert !IsDir(names[0]);
    assert NextIndex(names, 0) == Some(0);
    assert names[1] == "" && NextIndex(names, 0) != Some(1);
  }

  /**
   * `on_restore` as written, where `hadArchive` says whether a backup or a
   * restore earlier in the session opened its archive (and so assigned the
   * attribute, which `restore_done` and `backup_done` later set to `None`).
   * Only the attribute is as written: an archive that opens is restored by
   * the corrected chain, which the as-written cursor follows on archives it
   * does not cycle on (`AcyclicCursorAgrees`).
   */
  function RunAsWritten(env: RestoreEnv, openFails: bool, hadArchive: bool): (e: Ending)
    ensures e.AttributeError? <==> openFails && !hadArchive
    ensures e.AttributeError? ==> !e.ok && NoListing(e.commands)
    ensures e.Finished? ==> e.result == Run(env, openFails)
  {
    if openFails && !hadArchive then AttributeError(false, []) else Finished(Run(env, openFails))
  }

  /**
   * As written, on an archive the cursor does not cycle on, the file view is
   * reloaded (and the UI enabled again) exactly when the archive opens or an
   * archive was opened earlier in the session; the first restore of a
   * session from an archive that cannot be opened raises before the listing
   * is sent.
   */
  lemma ReloadsIff(env: RestoreEnv, openFails: bool, hadArchive: bool)
    requires Acyclic(env.names)
    ensures ListDir in Issued(RunAsWritten(env, openFails, hadArchive)) <==> !openFails || hadArchive
  {
    var e := RunAsWritten(env, openFails, hadArchive);
    if e.Finished? {
      RunEndsWithListing(env, openFails);
      assert Issued(e)[|Issued(e)| - 1] == ListDir;
    }
  }
}

=== FILE: session.dfy ===
/**
 * The main window's bookkeeping around board commands: greying out the UI
 * while the board is busy, the progress bar, running and stopping code
 * (with a one-second fallback that forces the board link to stop), and what
 * happens when a save completes.
 */
module Session {
  import opened Base
  import opened PyStr
  import opened CodeEditor

  // ---------------------------------------------------------------------------
  // Progress bar

  /** What `progress(val)` is called with: a bool, `None`, or an integer. */
  datatype ProgressArg = Flag(b: bool) | NoValue | Amount(v: int)

  /** The progress bar: hidden, an indeterminate busy bar, or a percentage bar. */
  datatype Bar = Hidden | Busy | Percent(value: int)

  datatype Progress = Shown(bar: Bar) | Raised(error: string)

  /** The text of the `RuntimeError` for a value above 100. */
  function ProgressError(v: nat): string {
    "PROEX " + Decimal(v)
  }

  /** The error names the offending value: the number after "PROEX " parses back to it. */
  lemma ProgressErrorNamesValue(v: nat)
    ensures var msg := ProgressError(v);
            StartsWith(msg, "PROEX ") && ParseInt(msg[6..]) == Some(v)
  {
    assert ProgressError(v)[6..] == Decimal(v);
    ParseIntDecimal(v);
  }

  /**
   * `progress(val)` as written. `True` is neither `False` nor `None`, and
   * Python compares and stores it as the integer 1.
   */
  function ProgressAsWritten(val: ProgressArg): (r: Progress)
    ensures r.Raised? <==> val.Amount? && val.v > 100
    ensures r == Shown(Hidden) <==> val == Flag(false)
  {
    match val
    case Flag(b) => if b then Shown(Percent(1)) else Shown(Hidden)
    case NoValue => Shown(Busy)
    case Amount(v) => if v < 0 then Shown(Busy) else if v > 100 then Raised(ProgressError(v)) else Shown(Percent(v))
  }

  /** Asking for the busy bar with `True` shows a percentage bar at 1% instead. */
  lemma ProgressTrueIsOnePercent()
    ensures ProgressAsWritten(Flag(true)) == Shown(Percent(1))
  {
  }

  /**
   * `progress(val)` as its callers intend it: `False` hides the bar; `True`,
   * `None` or a negative value shows the indeterminate busy bar; 0..100 a
   * percentage; anything larger raises.
   */
  function ProgressOf(val: ProgressArg): (r: Progress)
    ensures r == Shown(Hidden) <==> val == Flag(false)
    ensures r == Shown(Busy) <==> val == Flag(true) || val == NoValue || (val.Amount? && val.v < 0)
    ensures r.Shown? && r.bar.Percent? ==> val == Amount(r.bar.value) && 0 <= r.bar.value <= 100
    ensures r.Raised? <==> val.Amount? && val.v > 100
    ensures r.Raised? ==> r.error == ProgressError(val.v)
  {
    if val == Flag(true) then Shown(Busy) else ProgressAsWritten(val)
  }

  /** Apart from `True`, the corrected bar is the one the code shows. */
  lemma ProgressAgrees(val: ProgressArg)
    requires val != Flag(true)
    ensures ProgressOf(val) == ProgressAsWritten(val)
  {
  }

  // ---------------------------------------------------------------------------
  // Busy gating

  /** What `on_board_request(busy)` does to the window. */
  datatype Gate = Gate(clearConsole: bool, editorButtons: ButtonMode, progress: Progress, fileViewDisabled: bool)

  /** `on_board_request` as written, passing the flag itself to `progress`. */
  function BoardRequestAsWritten(busy: bool): (g: Gate)
    ensures busy ==> g == Gate(true, Disabled, Shown(Percent(1)), true)
    ensures !busy ==> g == BoardRequest(false)
  {
    Gate(busy, if busy then Disabled else RunMode, ProgressAsWritten(Flag(busy)), busy)
  }

  /** Starting a board command shows a percentage bar at 1% rather than the busy bar. */
  lemma BoardRequestShowsOnePercent()
    ensures BoardRequestAsWritten(true).progress == Shown(Percent(1))
  {
    ProgressTrueIsOnePercent();
  }

  /**
   * `on_board_request(busy)`: while busy the console is cleared, run buttons
   * are hidden, the busy bar shows and the file view is disabled; afterwards
   * all of it is given back.
   */
  function BoardRequest(busy: bool): (g: Gate)
    ensures busy ==> g == Gate(true, Disabled, Shown(Busy), true)
    ensures !busy ==> g == Gate(false, RunMode, Shown(Hidden), false)
  {
    Gate(busy, if busy then Disabled else RunMode, ProgressOf(Flag(busy)), busy)
  }

  /** The two gates differ only in the progress bar shown while busy. */
  lemma BoardRequestAgrees(busy: bool)
    ensures BoardRequest(busy) == BoardRequestAsWritten(busy).(progress := ProgressOf(Flag(busy)))
    ensures !busy ==> BoardRequest(busy) == BoardRequestAsWritten(busy)
  {
  }

  // ---------------------------------------------------------------------------
  // Running and stopping code

  /** What the user and the board do while code runs. */
  datatype Event = RunRequest | CodeDownloaded | StopRequest | TimerFires | RunDone(success: bool)

  /** What the window does in response. */
  datatype Effect = EditorButtons(mode: ButtonMode) | RunCommand | ConsoleInput(enabled: bool)
                  | ArmTimer(ms: nat) | GracefulStop | CancelTimer | ForceStop

  /** Whether the stop timer is armed, and the mode of the editors' run buttons. */
  datatype RunState = RunState(timerArmed: bool, buttons: ButtonMode)

  /** The stop timeout, in milliseconds. */
  const StopTimeout: nat := 1000

  /**
   * One event.
   * - `on_run`: the UI goes busy and the code is sent.
   * - `on_code_downloaded`: run buttons become stop buttons and the console takes keys.
   * - `on_stop`: buttons hidden, a fresh single-shot timer armed (replacing any
   *   earlier one), and the board asked to stop.
   * - `on_stop_timeout`: only an armed timer fires; it forces the board link
   *   to stop and forgets itself.
   * - `on_run_done`: a pending timer is cancelled and the UI is given back.
   */
  function Step(s: RunState, ev: Event): (r: (RunState, seq<Effect>))
    ensures ev.RunDone? ==> !r.0.timerArmed && r.0.buttons == RunMode
    ensures ev == StopRequest ==> r.0.timerArmed && r.1 == [EditorButtons(Disabled), ArmTimer(StopTimeout), GracefulStop]
    ensures ForceStop in r.1 <==> ev == TimerFires && s.timerArmed
    ensures CancelTimer in r.1 <==> ev.RunDone? && s.timerArmed
  {
    match ev
    case RunRequest => (s.(buttons := Disabled), [EditorButtons(Disabled), RunCommand])
    case CodeDownloaded => (s.(buttons := StopMode), [EditorButtons(StopMode), ConsoleInput(true)])
    case StopRequest => (RunState(true, Disabled), [EditorButtons(Disabled), ArmTimer(StopTimeout), GracefulStop])
    case TimerFires => if s.timerArmed then (s.(timerArmed := false), [ForceStop]) else (s, [])
    case RunDone(_) =>
      var cancel := if s.timerArmed then [CancelTimer] else [];
      (RunState(false, RunMode), cancel + [EditorButtons(RunMode), ConsoleInput(false)])
  }

  function RunAll(s: RunState, events: seq<Event>): (RunState, seq<Effect>)
    decreases |events|
  {
    if |events| == 0 then (s, [])
    else
      var first := Step(s, events[0]);
      var rest := RunAll(first.0, events[1..]);
      (rest.0, first.1 + rest.1)
  }

  function CountEffect(effects: seq<Effect>, x: Effect): nat {
    multiset(effects)[x]
  }

  function CountStops(events: seq<Event>): nat {
    multiset(events)[StopRequest]
  }

  /** Forcing never happens more often than the user asked to stop. */
  lemma {:induction false} ForceAtMostPerStop(s: RunState, events: seq<Event>)
    ensures var r := RunAll(s, events);
            CountEffect(r.1, ForceStop) + (if r.0.timerArmed then 1 else 0)
              <= CountStops(events) + (if s.timerArmed then 1 else 0)
    decreases |events|
  {
    if |events| > 0 {
      var first := Step(s, events[0]);
      var rest := RunAll(first.0, events[1..]);
      ForceAtMostPerStop(first.0, events[1..]);
      StepBudget(s, events[0]);
      assert RunAll(s, events) == (rest.0, first.1 + rest.1);
      CountEffectConcat(first.1, rest.1, ForceStop);
      CountStopsCons(events);
    }
  }

  lemma CountEffectConcat(a: seq<Effect>, b: seq<Effect>, x: Effect)
    ensures CountEffect(a + b, x) == CountEffect(a, x) + CountEffect(b, x)
  {
    assert multiset(a + b) == multiset(a) + multiset(b);
  }

  lemma CountStopsCons(events: seq<Event>)
    requires |events| > 0
    ensures CountStops(events) == (if events[0] == StopRequest then 1 else 0) + CountStops(events[1..])
  {
    assert events == [events[0]] + events[1..];
    assert multiset(events) == multiset([events[0]]) + multiset(events[1..]);
  }

  /** One event forces at most what it consumes from the stop requests and the armed timer. */
  lemma StepBudget(s: RunState, ev: Event)
    ensures CountEffect(Step(s, ev).1, ForceStop) + (if Step(s, ev).0.timerArmed then 1 else 0)
              <= (if ev == StopRequest then 1 else 0) + (if s.timerArmed then 1 else 0)
  {
    ForcesOfStep(s, ev);
  }

  lemma ForcesOfStep(s: RunState, ev: Event)
    ensures multiset(Step(s, ev).1)[ForceStop] == (if ev == TimerFires && s.timerArmed then 1 else 0)
  {
    if ev.RunDone? {
      var cancel: seq<Effect> := if s.timerArmed then [CancelTimer] else [];
      assert multiset(cancel + [EditorButtons(RunMode), ConsoleInput(false)]) == multiset(cancel) + multiset([EditorButtons(RunMode), ConsoleInput(false)]);
    }
  }

  /** The timer fires before the run is reported done. */
  predicate TimerWins(events: seq<Event>) {
    exists k :: 0 <= k < |events| && events[k] == TimerFires && forall j :: 0 <= j < k ==> !events[j].RunDone?
  }

  /**
   * Once armed, and without a further stop request, the timer forces the
   * board link to stop exactly once if it fires before the run is done, and
   * never otherwise; unarmed, nothing is forced.
   */
  lemma {:induction false} Escalation(s: RunState, events: seq<Event>)
    requires forall k :: 0 <= k < |events| ==> events[k] != StopRequest
    ensures CountEffect(RunAll(s, events).1, ForceStop) == if s.timerArmed && TimerWins(events) then 1 else 0
    decreases |events|
  {
    if |events| > 0 {
      var ev := events[0];
      var first := Step(s, ev);
      Escalation(first.0, events[1..]);
      var rest := RunAll(first.0, events[1..]);
      assert multiset(first.1 + rest.1) == multiset(first.1) + multiset(rest.1);
      ForcesOfStep(s, ev);
      WinsStep(events);
      if ev == TimerFires && s.timerArmed {
        assert !first.0.timerArmed;
      } else if ev.RunDone? {
        assert !first.0.timerArmed;
      } else {
        assert first.0.timerArmed == s.timerArmed;
      }
    } else {
      assert !TimerWins(events);
    }
  }

  lemma WinsStep(events: seq<Event>)
    requires |events| > 0
    ensures TimerWins(events) <==> events[0] == TimerFires || (!events[0].RunDone? && TimerWins(events[1..]))
  {
    var rest := events[1..];
    if TimerWins(events) && events[0] != TimerFires {
      var k :| 0 <= k < |events| && events[k] == TimerFires && forall j :: 0 <= j < k ==> !events[j].RunDone?;
      assert k > 0 && rest[k - 1] == TimerFires;
      assert forall j :: 0 <= j < k - 1 ==> !rest[j].RunDone? by {
        forall j | 0 <= j < k - 1 ensures !rest[j].RunDone? {
          assert rest[j] == events[j + 1];
        }
      }
    }
    if !events[0].RunDone? && TimerWins(rest) {
      var k :| 0 <= k < |rest| && rest[k] == TimerFires && forall j :: 0 <= j < k ==> !rest[j].RunDone?;
      assert events[k + 1] == TimerFires;
      forall j | 0 <= j < k + 1 ensures !events[j].RunDone? {
        if j > 0 {
          assert events[j] == rest[j - 1];
        }
      }
    }
  }

  /** A stop request followed by the run finishing first: the timer is cancelled and nothing is forced. */
  lemma StopThenDone(s: RunState, success: bool)
    ensures RunAll(s, [StopRequest, RunDone(success), TimerFires]).1
            == [EditorButtons(Disabled), ArmTimer(StopTimeout), GracefulStop,
                CancelTimer, EditorButtons(RunMode), ConsoleInput(false)]
  {
    var evs := [StopRequest, RunDone(success), TimerFires];
    assert evs[1..] == [RunDone(success), TimerFires];
    assert evs[1..][1..] == [TimerFires];
    var s1 := Step(s, StopRequest).0;
    var s2 := Step(s1, RunDone(success)).0;
    assert RunAll(s2, [TimerFires]).1 == [] by {
      assert [TimerFires][1..] == [];
    }
    assert Step(s1, RunDone(success)).1 == [CancelTimer, EditorButtons(RunMode), ConsoleInput(false)];
  }

  // ---------------------------------------------------------------------------
  // Save completion

  /** The pending save (`self.code`): the file, whether it is new, what to call afterwards, and whether to open it. */
  datatype SaveRequest = SaveRequest(name: string, code: string, newFile: bool,
                                     callback: Option<string>, noEdit: bool)

  datatype SaveEffect = GiveBack | ConsoleButton | Status(text: string)
                      | FileAdded(name: string, size: nat) | FileSaved(name: string, size: nat)
                      | EditorOpened(name: string, code: string) | EditorSaved(name: string, code: string)
                      | Called(context: string)

  /** The file-view and editor updates of a successful save, in order. */
  function SaveUpdates(req: SaveRequest): seq<SaveEffect> {
    [if req.newFile then FileAdded(req.name, |req.code|) else FileSaved(req.name, |req.code|)]
    + (if req.noEdit then []
       else [if req.newFile then EditorOpened(req.name, req.code) else EditorSaved(req.name, req.code)])
    + (if req.callback.Some? then [Called(req.callback.value)] else [])
  }

  /**
   * `on_save_done`: the UI is given back either way; on success the file
   * view and (unless the file is not for editing) the editors learn of the
   * save, the pending request is dropped and then the callback runs; on
   * failure only a status is shown and the request stays.
   */
  function SaveDone(req: SaveRequest, success: bool): (r: (seq<SaveEffect>, Option<SaveRequest>))
    ensures |r.0| >= 3 && r.0[..2] == [GiveBack, ConsoleButton]
    ensures !success ==> r == ([GiveBack, ConsoleButton, Status("Saving aborted with error")], Some(req))
    ensures success ==> r.1.None? && r.0[2] == Status("Saved " + req.name)
  {
    if success then ([GiveBack, ConsoleButton, Status("Saved " + req.name)] + SaveUpdates(req), None)
    else ([GiveBack, ConsoleButton, Status("Saving aborted with error")], Some(req))
  }

  /**
   * After a successful save the file view holds the saved size exactly once;
   * an editor is updated exactly when the file is for editing, and the
   * callback, if any, comes last.
   */
  lemma SaveDoneUpdates(req: SaveRequest)
    ensures var effects := SaveDone(req, true).0;
            && |effects| == 4 + (if req.noEdit then 0 else 1) + (if req.callback.Some? then 1 else 0)
            && effects[3] == (if req.newFile then FileAdded(req.name, |req.code|) else FileSaved(req.name, |req.code|))
            && (req.callback.Some? ==> effects[|effects| - 1] == Called(req.callback.value))
            && (!req.noEdit ==> effects[4] == (if req.newFile then EditorOpened(req.name, req.code)
                                               else EditorSaved(req.name, req.code)))
  {
  }
}

=== FILE: traceback.dfy ===
/**
 * The traceback resolver of the IDE's main window (`Window.on_error`). A
 * MicroPython error report is a banner line, a run of `File "<name>", line
 * <n>, in <context>` lines and then the exception message. The resolver finds
 * the last `File` line, takes the file name and line number from it, rewrites
 * `KeyboardInterrupt:` in the message, and then either highlights an open
 * editor, asks the board for the file so that it can be highlighted once
 * loaded, or, when the text does not have that shape, prints it verbatim.
 */
module Traceback {
  import opened Base
  import opened PyStr

  const Interrupt := "KeyboardInterrupt:"
  /** English text of the translated "Stopped by user" replacement. */
  const StoppedByUser := "Stopped by user"
  /** The name MicroPython reports for the script sent over the serial link. */
  const Stdin := "<stdin>"

  datatype Color = Red | DarkRed
  datatype ConsoleLine = ConsoleLine(text: string, color: Color)

  /** A call of the editors' `highlight(name, line, msg)`. */
  datatype HighlightCall = HighlightCall(file: Option<string>, line: int, message: string)

  /** The GET_FILE board command issued to load the file and then highlight it. */
  datatype FetchRequest = FetchRequest(file: Option<string>, size: int, line: int, message: string)

  /** Everything `on_error` does: the highlight attempt, the fetch, the console output. */
  datatype Report = Report(highlight: Option<HighlightCall>, fetch: Option<FetchRequest>, console: seq<ConsoleLine>)

  /** A parsed location: index of the first message line, line number, comma fields of the last `File` line, file token. */
  datatype Location = Location(index: nat, line: int, loc: seq<string>, file: Option<string>)

  /** `msg.replace('\r', '').split("\n")` */
  function Lines(msg: string): (lines: seq<string>)
    ensures |lines| >= 1
    ensures Join(lines, '\n') == RemoveChar(msg, '\r')
    ensures forall k :: 0 <= k < |lines| ==> '\n' !in lines[k] && '\r' !in lines[k]
  {
    JoinSplit(RemoveChar(msg, '\r'), '\n');
    SplitExcludes(RemoveChar(msg, '\r'), '\n');
    RemoveCharSpec(msg, '\r');
    SplitAbsent(RemoveChar(msg, '\r'), '\n', '\r');
    Split(RemoveChar(msg, '\r'), '\n')
  }

  /** `line.strip().lower().startswith("file")` */
  predicate IsFileLine(line: string) {
    StartsWith(Lower(Strip(line)), "file")
  }

  /** Lines `i` up to `k` (exclusive) are all `File` lines. */
  predicate FileLines(lines: seq<string>, i: nat, k: nat)
    requires i <= k <= |lines|
  {
    forall j :: i <= j < k ==> IsFileLine(lines[j])
  }

  /** Index where the run of `File` lines starting at `i` ends (`|lines|` when it runs off the end). */
  function FrameEnd(lines: seq<string>, i: nat): (k: nat)
    requires i <= |lines|
    ensures i <= k <= |lines|
    ensures FileLines(lines, i, k)
    ensures k < |lines| ==> !IsFileLine(lines[k])
    decreases |lines| - i
  {
    if i == |lines| || !IsFileLine(lines[i]) then i else FrameEnd(lines, i + 1)
  }

  /** Editors expect absolute names: prefix "/" unless the name is `<stdin>` or already absolute. */
  function Absolute(file: string): string {
    if file != Stdin && !StartsWith(file, "/") then "/" + file else file
  }

  /** The quoted file name of the location line, if it has a second space-separated word. */
  function FileToken(loc0: string): Option<string> {
    var words := Split(Strip(loc0), ' ');
    if |words| > 1 then Some(Absolute(StripChar(words[1], '"'))) else None
  }

  /** A file token is `<stdin>` or an absolute name. */
  lemma FileTokenAbsolute(loc0: string)
    ensures FileToken(loc0).Some? ==> FileToken(loc0).value == Stdin || StartsWith(FileToken(loc0).value, "/")
  {
  }

  /** The `<stdin>` name stands for the script the caller names; other names are kept. */
  function ResolveName(token: Option<string>, name: Option<string>): (r: Option<string>)
    ensures token == Some(Stdin) ==> r == name
    ensures token != Some(Stdin) ==> r == token
  {
    if token == Some(Stdin) then name else token
  }

  /**
   * The parse of lines 690-699: `None` is any of the exceptions the source
   * catches there (running past the last line, no comma, no second word,
   * a line number `int()` rejects).
   */
  function Locate(lines: seq<string>): (r: Option<Location>)
    requires |lines| >= 1
    ensures r.Some? ==> 1 <= r.value.index < |lines|
    ensures r.Some? ==> r.value.index == FrameEnd(lines, 1)
    ensures r.Some? ==> r.value.loc == Split(lines[r.value.index - 1], ',') && |r.value.loc| >= 2
    ensures r.Some? ==> LineNumber(r.value.loc[1]) == Some(r.value.line)
    ensures r.Some? ==> r.value.file == FileToken(r.value.loc[0])
    ensures r.None? <==>
              || FrameEnd(lines, 1) == |lines|
              || var loc := Split(lines[FrameEnd(lines, 1) - 1], ',');
                 |loc| < 2 || LineNumber(loc[1]).None?
  {
    var i := FrameEnd(lines, 1);
    if i == |lines| then None
    else LocateAt(i, Split(lines[i - 1], ','))
  }

  /** The location built from the comma fields `loc` of the last `File` line. */
  function LocateAt(i: nat, loc: seq<string>): Option<Location> {
    if |loc| < 2 then None
    else
      match LineNumber(loc[1])
      case None => None
      case Some(n) => Some(Location(i, n, loc, FileToken(loc[0])))
  }

  /** `int(field.strip().split(" ")[1].strip())`; `None` is the `IndexError` or `ValueError`. */
  function LineNumber(field: string): Option<int> {
    var words := Split(Strip(field), ' ');
    if |words| < 2 then None else ParseInt(Strip(words[1]))
  }

  /** `lines[i].replace("KeyboardInterrupt:", "Stopped by user")` */
  function Reword(line: string): string {
    ReplaceAll(line, Interrupt, StoppedByUser)
  }

  /** The message shown: the lines from `i` on, line `i` reworded. */
  function Message(lines: seq<string>, i: nat): string
    requires i < |lines|
  {
    Join([Reword(lines[i])] + lines[i + 1..], '\n')
  }

  /** The lines joined back with the location's successor reworded: the part before it, then the message. */
  lemma RewordedJoin(lines: seq<string>, i: nat)
    requires 1 <= i < |lines|
    ensures Join(lines[i := Reword(lines[i])], '\n') == Join(lines[..i], '\n') + "\n" + Message(lines, i)
  {
    var reworded := lines[i := Reword(lines[i])];
    assert reworded[i..] == [Reword(lines[i])] + lines[i + 1..];
    assert reworded == lines[..i] + reworded[i..];
    assert reworded[..i] == lines[..i];
    JoinConcat(lines[..i], reworded[i..], '\n');
  }

  /**
   * `on_error(name, msg)`. `highlight` is the editors' highlight (true iff an
   * editor for the file is open) and `fileSize` the file view's size lookup.
   */
  function OnError(name: Option<string>, msg: string,
                   highlight: (Option<string>, int, string) -> bool,
                   fileSize: Option<string> -> Option<int>): (r: Report)
    ensures Locate(Lines(msg)).None? ==>
              r == Report(None, None, [ConsoleLine(RemoveChar(msg, '\r'), Red)])
    ensures Locate(Lines(msg)).Some? ==>
              var l := Locate(Lines(msg)).value;
              && r.highlight == Some(HighlightCall(ResolveName(l.file, name), l.line, Message(Lines(msg), l.index)))
    ensures Locate(Lines(msg)).Some? && ResolveName(Locate(Lines(msg)).value.file, name).None? ==>
              var lines := Lines(msg);
              var i := Locate(lines).value.index;
              r.console == [ConsoleLine(Join(lines[..i], '\n') + "\n" + Message(lines, i), Red)]
    ensures Locate(Lines(msg)).Some? && ResolveName(Locate(Lines(msg)).value.file, name).Some? ==>
              var l := Locate(Lines(msg)).value;
              var file := ResolveName(l.file, name).value;
              r.console == [ConsoleLine(LastPart(file, '/') + ", " + Strip(Join(l.loc[1..], ',')) + "\n", DarkRed),
                            ConsoleLine(Message(Lines(msg), l.index), DarkRed)]
    ensures r.fetch.Some? ==>
              && r.highlight.Some?
              && var h := r.highlight.value;
              && !highlight(h.file, h.line, h.message)
              && r.fetch.value == FetchRequest(h.file, r.fetch.value.size, h.line, h.message)
              && fileSize(h.file) == Some(r.fetch.value.size) && r.fetch.value.size > 0
    ensures (r.highlight.Some? && !highlight(r.highlight.value.file, r.highlight.value.line, r.highlight.value.message)
             && fileSize(r.highlight.value.file).Some? && fileSize(r.highlight.value.file).value > 0) ==> r.fetch.Some?
  {
    var lines := Lines(msg);
    match Locate(lines)
    case None => Report(None, None, [ConsoleLine(Join(lines, '\n'), Red)])
    case Some(l) =>
      var reworded := lines[l.index := Reword(lines[l.index])];
      var message := Message(lines, l.index);
      var file := ResolveName(l.file, name);
      var shown := highlight(file, l.line, message);
      var size := if shown then None else fileSize(file);
      var fetch := if size.Some? && size.value > 0 then Some(FetchRequest(file, size.value, l.line, message)) else None;
      var console :=
        if file.None? then
          // `None.split` raises after the highlight attempt: the except branch prints everything
          RewordedJoin(lines, l.index);
          [ConsoleLine(Join(reworded, '\n'), Red)]
        else
          [ConsoleLine(LastPart(file.value, '/') + ", " + Strip(Join(l.loc[1..], ',')) + "\n", DarkRed),
           ConsoleLine(message, DarkRed)];
      Report(Some(HighlightCall(file, l.line, message)), fetch, console)
  }

  // ---------------------------------------------------------------------------
  // Properties of the resolver

  /** The location is the last line of the `File` run; the line number is the integer after "line". */
  lemma LocationIsLastFrame(lines: seq<string>)
    requires |lines| >= 1
    requires Locate(lines).Some?
    ensures var l := Locate(lines).value;
            && FileLines(lines, 1, l.index)
            && !IsFileLine(lines[l.index])
            && var words := Split(Strip(l.loc[1]), ' ');
            && |words| >= 2 && ParseInt(Strip(words[1])) == Some(l.line)
  {
  }

  /** A report whose first line after the banner is not a `File` line is printed verbatim when the banner has no comma. */
  lemma BannerThenMessageFallsBack(name: Option<string>, banner: string, rest: seq<string>,
                                   highlight: (Option<string>, int, string) -> bool,
                                   fileSize: Option<string> -> Option<int>)
    requires OneLine(banner) && ',' !in banner
    requires |rest| >= 1 && !IsFileLine(rest[0])
    requires forall k :: 0 <= k < |rest| ==> OneLine(rest[k])
    ensures var msg := Join([banner] + rest, '\n');
            OnError(name, msg, highlight, fileSize) == Report(None, None, [ConsoleLine(msg, Red)])
  {
    SplitNoSep(banner, ',');
    BannerFieldsFallBack(name, banner, rest, highlight, fileSize);
  }

  /** As above, for a banner that is a single comma field. */
  lemma BannerFieldsFallBack(name: Option<string>, banner: string, rest: seq<string>,
                             highlight: (Option<string>, int, string) -> bool,
                             fileSize: Option<string> -> Option<int>)
    requires OneLine(banner) && |Split(banner, ',')| < 2
    requires |rest| >= 1 && !IsFileLine(rest[0])
    requires forall k :: 0 <= k < |rest| ==> OneLine(rest[k])
    ensures var msg := Join([banner] + rest, '\n');
            OnError(name, msg, highlight, fileSize) == Report(None, None, [ConsoleLine(msg, Red)])
  {
    var lines := [banner] + rest;
    var msg := Join(lines, '\n');
    assert forall k :: 0 <= k < |lines| ==> OneLine(lines[k]);
    LinesOfJoin(lines);
    assert lines[1] == rest[0];
    assert FrameEnd(lines, 1) == 1;
    NoCommaFallsBack(lines);
    Unparsed(name, msg, highlight, fileSize);
  }

  /** What a parse failure prints: the `\r`-stripped text, in red, and nothing else happens. */
  lemma Unparsed(name: Option<string>, msg: string,
                 highlight: (Option<string>, int, string) -> bool,
                 fileSize: Option<string> -> Option<int>)
    requires Locate(Lines(msg)).None?
    ensures OnError(name, msg, highlight, fileSize) == Report(None, None, [ConsoleLine(RemoveChar(msg, '\r'), Red)])
  {
  }

  /** Splitting joined one-line strings gives them back. */
  lemma LinesOfJoin(lines: seq<string>)
    requires |lines| >= 1
    requires forall k :: 0 <= k < |lines| ==> OneLine(lines[k])
    ensures RemoveChar(Join(lines, '\n'), '\r') == Join(lines, '\n')
    ensures Lines(Join(lines, '\n')) == lines
  {
    JoinExcludes(lines, '\n', '\r');
    RemoveAbsent(Join(lines, '\n'), '\r');
    SplitJoin(lines, '\n');
  }

  /** When the line before the first non-`File` line has fewer than two comma fields, parsing fails. */
  lemma NoCommaFallsBack(lines: seq<string>)
    requires |lines| >= 1
    requires FrameEnd(lines, 1) < |lines| && |Split(lines[FrameEnd(lines, 1) - 1], ',')| < 2
    ensures Locate(lines).None?
  {
    var i := FrameEnd(lines, 1);
    assert Locate(lines) == LocateAt(i, Split(lines[i - 1], ','));
  }

  /** Text whose lines after the banner are all `File` lines runs past the end and is printed verbatim. */
  lemma OnlyFramesFallsBack(name: Option<string>, msg: string,
                            highlight: (Option<string>, int, string) -> bool,
                            fileSize: Option<string> -> Option<int>)
    requires forall j :: 1 <= j < |Lines(msg)| ==> IsFileLine(Lines(msg)[j])
    ensures OnError(name, msg, highlight, fileSize) == Report(None, None, [ConsoleLine(RemoveChar(msg, '\r'), Red)])
  {
    var lines := Lines(msg);
    var k := FrameEnd(lines, 1);
  }

  /** A location line whose second comma field does not hold an integer as its second word is printed verbatim. */
  lemma NonIntegerFallsBack(name: Option<string>, msg: string,
                            highlight: (Option<string>, int, string) -> bool,
                            fileSize: Option<string> -> Option<int>)
    requires var lines := Lines(msg); var i := FrameEnd(lines, 1);
             && i < |lines|
             && var loc := Split(lines[i - 1], ',');
             && |loc| >= 2
             && var words := Split(Strip(loc[1]), ' ');
             && |words| >= 2 && ParseInt(Strip(words[1])).None?
    ensures OnError(name, msg, highlight, fileSize) == Report(None, None, [ConsoleLine(RemoveChar(msg, '\r'), Red)])
  {
  }

  // ---------------------------------------------------------------------------
  // A well-formed MicroPython traceback resolves to its last frame

  datatype Frame = Frame(file: string, line: nat, context: string)

  /** `<indent>File "<file>"` */
  function FrameHead(indent: string, file: string): string {
    indent + "File \"" + file + "\""
  }

  /** ` line <n>` */
  function LineField(n: nat): string {
    " line " + Decimal(n)
  }

  /** How MicroPython prints one frame of a traceback. */
  function FrameLine(indent: string, f: Frame): string {
    FrameHead(indent, f.file) + "," + LineField(f.line) + "," + " in " + f.context
  }

  function FrameLines(indent: string, frames: seq<Frame>): (r: seq<string>)
    ensures |r| == |frames|
    ensures forall k :: 0 <= k < |frames| ==> r[k] == FrameLine(indent, frames[k])
  {
    seq(|frames|, k requires 0 <= k < |frames| => FrameLine(indent, frames[k]))
  }

  /** A file name the traceback prints unambiguously: no space, comma, quote at its ends, or line break. */
  predicate PlainName(file: string) {
    && |file| > 0 && file[0] != '"' && file[|file| - 1] != '"'
    && forall k :: 0 <= k < |file| ==> file[k] != ' ' && file[k] != ',' && file[k] != '\n' && file[k] != '\r'
  }

  predicate OneLine(s: string) {
    '\n' !in s && '\r' !in s
  }

  predicate Blanks(indent: string) {
    forall k :: 0 <= k < |indent| ==> indent[k] == ' '
  }

  lemma FrameLineIsFileLine(indent: string, f: Frame)
    requires Blanks(indent)
    ensures IsFileLine(FrameLine(indent, f))
  {
    var t := "File \"" + f.file + "\"" + "," + LineField(f.line) + "," + " in " + f.context;
    assert FrameLine(indent, f) == indent + t;
    StripKeepsPrefix(indent, t, "File");
    var st := Strip(indent + t);
    assert Lower(st)[..4] == "file";
  }

  lemma FrameLineOneLine(indent: string, f: Frame)
    requires Blanks(indent) && PlainName(f.file) && OneLine(f.context)
    ensures OneLine(FrameLine(indent, f))
  {
    assert '\n' !in Decimal(f.line) && '\r' !in Decimal(f.line);
  }

  /** The comma fields of a frame line. */
  lemma FrameLineFields(indent: string, f: Frame)
    requires Blanks(indent) && PlainName(f.file)
    ensures var loc := Split(FrameLine(indent, f), ',');
            && |loc| >= 2
            && loc[0] == FrameHead(indent, f.file)
            && loc[1] == LineField(f.line)
  {
    var head := FrameHead(indent, f.file);
    var field := LineField(f.line);
    var tail := " in " + f.context;
    assert ',' !in head;
    assert ',' !in field by { assert ',' !in Decimal(f.line); }
    assert FrameLine(indent, f) == head + [','] + (field + [','] + tail);
    SplitAtSep(head, field + [','] + tail, ',');
    SplitAtSep(field, tail, ',');
  }

  /** `int(" line <n>".strip().split(" ")[1].strip()) == n` */
  lemma LineFieldParses(n: nat)
    ensures var words := Split(Strip(LineField(n)), ' ');
            |words| >= 2 && words[1] == Decimal(n) && ParseInt(Strip(words[1])) == Some(n)
  {
    var d := Decimal(n);
    assert !IsSpace(d[|d| - 1]);
    assert LineField(n) == " " + ("line " + d);
    StripLeading(" ", "line " + d);
    assert ' ' !in d;
    assert "line " + d == "line" + [' '] + d;
    SplitAtSep("line", d, ' ');
    SplitNoSep(d, ' ');
    StripKeeps(d);
    ParseIntDecimal(n);
  }

  /** The quoted name of a frame head is recovered, made absolute. */
  lemma FrameHeadName(indent: string, file: string)
    requires Blanks(indent) && PlainName(file)
    ensures FileToken(FrameHead(indent, file)) == Some(Absolute(file))
  {
    var quoted := "\"" + file + "\"";
    FrameHeadWords(indent, file);
    Unquote(file);
    assert Split(Strip(FrameHead(indent, file)), ' ')[1] == quoted;
  }

  /** A frame head is the word `File` and the quoted name. */
  lemma FrameHeadWords(indent: string, file: string)
    requires Blanks(indent) && PlainName(file)
    ensures Split(Strip(FrameHead(indent, file)), ' ') == ["File", "\"" + file + "\""]
  {
    var quoted := "\"" + file + "\"";
    var rest := "File" + [' '] + quoted;
    FrameHeadStrip(indent, file);
    assert ' ' !in quoted;
    SplitAtSep("File", quoted, ' ');
    SplitNoSep(quoted, ' ');
    assert Split(rest, ' ') == ["File"] + [quoted];
  }

  /** Stripping a frame head drops its indentation. */
  lemma FrameHeadStrip(indent: string, file: string)
    requires Blanks(indent) && |file| > 0
    ensures Strip(FrameHead(indent, file)) == "File" + [' '] + ("\"" + file + "\"")
  {
    var rest := "File" + [' '] + ("\"" + file + "\"");
    assert FrameHead(indent, file) == indent + rest;
    StripLeading(indent, rest);
  }

  /** Stripping the quotes gives back a name that neither starts nor ends with one. */
  lemma Unquote(file: string)
    requires |file| > 0 && file[0] != '"' && file[|file| - 1] != '"'
    ensures StripChar("\"" + file + "\"", '"') == file
  {
    assert "\"" + file + "\"" == "\"" + (file + "\"");
    TrimLeftSkip("\"", file + "\"", Is('"'));
    assert TrimLeft(file + "\"", Is('"')) == file + "\"";
    TrimRightSkip(file, "\"", Is('"'));
  }

  /** What a traceback is printed from: a one-line banner, frames with plain names, and message lines. */
  predicate Printable(banner: string, indent: string, frames: seq<Frame>, message: seq<string>) {
    && OneLine(banner) && Blanks(indent)
    && |frames| >= 1
    && (forall k :: 0 <= k < |frames| ==> PlainName(frames[k].file) && OneLine(frames[k].context))
    && |message| >= 1 && !IsFileLine(message[0])
    && (forall k :: 0 <= k < |message| ==> OneLine(message[k]))
  }

  /** The lines of a printed traceback. */
  function Printed(banner: string, indent: string, frames: seq<Frame>, message: seq<string>): seq<string> {
    [banner] + FrameLines(indent, frames) + message
  }

  /** A printed traceback splits back into its lines. */
  lemma PrintedLines(banner: string, indent: string, frames: seq<Frame>, message: seq<string>)
    requires Printable(banner, indent, frames, message)
    ensures Lines(Join(Printed(banner, indent, frames, message), '\n')) == Printed(banner, indent, frames, message)
  {
    var lines := Printed(banner, indent, frames, message);
    forall k | 0 <= k < |lines| ensures OneLine(lines[k]) {
      if 1 <= k <= |frames| {
        assert lines[k] == FrameLine(indent, frames[k - 1]);
        FrameLineOneLine(indent, frames[k - 1]);
      } else if k > |frames| {
        assert lines[k] == message[k - |frames| - 1];
      }
    }
    LinesOfJoin(lines);
  }

  /** The `File` run of a printed traceback is exactly its frames. */
  lemma PrintedFrameEnd(banner: string, indent: string, frames: seq<Frame>, message: seq<string>)
    requires Printable(banner, indent, frames, message)
    ensures FrameEnd(Printed(banner, indent, frames, message), 1) == |frames| + 1
  {
    var lines := Printed(banner, indent, frames, message);
    forall j | 1 <= j <= |frames| ensures IsFileLine(lines[j]) {
      assert lines[j] == FrameLine(indent, frames[j - 1]);
      FrameLineIsFileLine(indent, frames[j - 1]);
    }
    assert lines[|frames| + 1] == message[0];
    assert FileLines(lines, 1, |frames| + 1);
  }

  /** A printed traceback splits back into its lines and locates its last frame. */
  lemma PrintedLocates(banner: string, indent: string, frames: seq<Frame>, message: seq<string>)
    requires Printable(banner, indent, frames, message)
    ensures var lines := Printed(banner, indent, frames, message);
            var last := frames[|frames| - 1];
            && Lines(Join(lines, '\n')) == lines
            && Locate(lines).Some?
            && Locate(lines).value.index == |frames| + 1
            && Locate(lines).value.line == last.line
            && Locate(lines).value.file == Some(Absolute(last.file))
  {
    var last := frames[|frames| - 1];
    var lines := Printed(banner, indent, frames, message);
    PrintedLines(banner, indent, frames, message);
    PrintedFrameEnd(banner, indent, frames, message);
    var i := |frames| + 1;
    assert lines[i - 1] == FrameLine(indent, last);
    var loc := Split(lines[i - 1], ',');
    FrameLineFields(indent, last);
    LineFieldParses(last.line);
    FrameHeadName(indent, last.file);
    assert LineNumber(loc[1]) == Some(last.line);
    assert FileToken(loc[0]) == Some(Absolute(last.file));
    assert Locate(lines) == LocateAt(i, loc);
  }

  lemma Halves(pre: seq<string>, post: seq<string>)
    ensures (pre + post)[..|pre|] == pre && (pre + post)[|pre|..] == post
  {
  }

  /** What `on_error` reports for a text whose message lines, from the located index on, are `message`. */
  lemma ResolvedAt(name: Option<string>, text: string, lines: seq<string>, i: nat, message: seq<string>,
                   highlight: (Option<string>, int, string) -> bool,
                   fileSize: Option<string> -> Option<int>)
    requires Lines(text) == lines
    requires Locate(lines).Some? && Locate(lines).value.index == i
    requires i <= |lines| && lines[i..] == message && |message| >= 1
    ensures var l := Locate(lines).value;
            var r := OnError(name, text, highlight, fileSize);
            var shown := Join([Reword(message[0])] + message[1..], '\n');
            && r.highlight == Some(HighlightCall(ResolveName(l.file, name), l.line, shown))
            && (ResolveName(l.file, name).None? ==> r.console == [ConsoleLine(Join(lines[..i], '\n') + "\n" + shown, Red)])
  {
    assert lines[i] == message[0];
    assert lines[i + 1..] == message[1..];
  }

  /**
   * Round trip: printing a banner, frames and message lines as MicroPython
   * does and resolving the text yields the last frame's file (made absolute,
   * or the caller's name for `<stdin>`), its line number, and the message
   * lines with the first one reworded.
   */
  lemma ResolvesLastFrame(name: Option<string>, banner: string, indent: string,
                          frames: seq<Frame>, message: seq<string>,
                          highlight: (Option<string>, int, string) -> bool,
                          fileSize: Option<string> -> Option<int>)
    requires OneLine(banner) && Blanks(indent)
    requires |frames| >= 1
    requires forall k :: 0 <= k < |frames| ==> PlainName(frames[k].file) && OneLine(frames[k].context)
    requires |message| >= 1 && !IsFileLine(message[0])
    requires forall k :: 0 <= k < |message| ==> OneLine(message[k])
    ensures var last := frames[|frames| - 1];
            var text := Join([banner] + FrameLines(indent, frames) + message, '\n');
            OnError(name, text, highlight, fileSize).highlight
              == Some(HighlightCall(ResolveName(Some(Absolute(last.file)), name), last.line,
                                    Join([Reword(message[0])] + message[1..], '\n')))
  {
    PrintedLocates(banner, indent, frames, message);
    var pre := [banner] + FrameLines(indent, frames);
    Halves(pre, message);
    var l := Locate(pre + message).value;
    assert l.file == Some(Absolute(frames[|frames| - 1].file)) && l.line == frames[|frames| - 1].line;
    var shown := Join([Reword(message[0])] + message[1..], '\n');
    assert |pre| == |frames| + 1;
    assert Lines(Join(pre + message, '\n')) == pre + message;
    assert Locate(pre + message).Some? && l.index == |pre|;
    assert (pre + message)[|pre|..] == message;
    ResolvedAt(name, Join(pre + message, '\n'), pre + message, |pre|, message, highlight, fileSize);
    assert OnError(name, Join(pre + message, '\n'), highlight, fileSize).highlight
             == Some(HighlightCall(ResolveName(l.file, name), l.line, shown));
  }

  /**
   * An exception the window reports itself names no script, so a traceback
   * from `<stdin>` resolves to no file: the whole text is printed in red, the
   * message reworded, so that an interrupt reads "Stopped by user".
   */
  lemma UnnamedStdinPrintsRed(banner: string, indent: string, frames: seq<Frame>, message: seq<string>,
                              highlight: (Option<string>, int, string) -> bool,
                              fileSize: Option<string> -> Option<int>)
    requires OneLine(banner) && Blanks(indent)
    requires |frames| >= 1 && frames[|frames| - 1].file == Stdin
    requires forall k :: 0 <= k < |frames| ==> PlainName(frames[k].file) && OneLine(frames[k].context)
    requires |message| >= 1 && !IsFileLine(message[0])
    requires forall k :: 0 <= k < |message| ==> OneLine(message[k])
    ensures var text := Join([banner] + FrameLines(indent, frames) + message, '\n');
            OnError(None, text, highlight, fileSize).console
              == [ConsoleLine(Join([banner] + FrameLines(indent, frames), '\n') + "\n"
                              + Join([Reword(message[0])] + message[1..], '\n'), Red)]
  {
    PrintedLocates(banner, indent, frames, message);
    var pre := [banner] + FrameLines(indent, frames);
    Halves(pre, message);
    var l := Locate(pre + message).value;
    assert Absolute(Stdin) == Stdin;
    assert l.file == Some(Stdin) && ResolveName(l.file, None).None?;
    var shown := Join([Reword(message[0])] + message[1..], '\n');
    assert |pre| == |frames| + 1;
    assert Lines(Join(pre + message, '\n')) == pre + message;
    assert Locate(pre + message).Some? && l.index == |pre|;
    assert (pre + message)[|pre|..] == message;
    ResolvedAt(None, Join(pre + message, '\n'), pre + message, |pre|, message, highlight, fileSize);
    assert OnError(None, Join(pre + message, '\n'), highlight, fileSize).console
             == [ConsoleLine(Join(pre, '\n') + "\n" + shown, Red)];
  }

  const ExampleBanner := "Traceback (most recent call last):"
  const ExampleFrame := "File \"<stdin>\"" + "," + " line 4" + "," + " in " + "<module>"
  const ExampleMessage := "ImportError: no module named 'timex'"

  /** The frame line of the example. */
  lemma ExampleLine()
    ensures FrameLine("", Frame(Stdin, 4, "<module>")) == ExampleFrame
  {
    assert Decimal(4) == "4";
    assert LineField(4) == " line 4";
    assert FrameHead("", Stdin) == "File \"<stdin>\"";
  }

  /** The message line of the example does not start with `File`. */
  lemma ExampleMessageNotFile()
    ensures !IsFileLine(ExampleMessage)
  {
    StripKeeps(ExampleMessage);
    assert Lower(ExampleMessage)[0] == 'i';
  }

  /** The message of the example mentions no keyboard interrupt, so it is shown as is. */
  lemma ExampleMessageKept()
    ensures Reword(ExampleMessage) == ExampleMessage
  {
    ReplaceAbsent(ExampleMessage, Interrupt, StoppedByUser);
  }

  /** The names and lines of the example fit the printed form. */
  lemma ExamplePlain()
    ensures PlainName(Stdin) && OneLine("<module>") && OneLine(ExampleBanner) && OneLine(ExampleMessage)
  {
    ExampleBannerOneLine();
    ExampleMessageOneLine();
  }

  lemma ExampleBannerOneLine()
    ensures OneLine(ExampleBanner)
  {
  }

  lemma ExampleMessageOneLine()
    ensures OneLine(ExampleMessage)
  {
  }

  /**
   * The example of a script importing a missing module: the error is placed
   * on line 4 of the caller's script with the exception text as the message.
   */
  lemma ImportErrorExample(script: string, text: string,
                           highlight: (Option<string>, int, string) -> bool,
                           fileSize: Option<string> -> Option<int>)
    requires text == ExampleBanner + "\n" + ExampleFrame + "\n" + ExampleMessage
    ensures OnError(Some(script), text, highlight, fileSize).highlight
              == Some(HighlightCall(Some(script), 4, ExampleMessage))
  {
    var frame := Frame(Stdin, 4, "<module>");
    ExampleLine();
    ExampleMessageNotFile();
    ExamplePlain();
    var line := FrameLine("", frame);
    assert [ExampleBanner] + FrameLines("", [frame]) + [ExampleMessage] == [ExampleBanner, line, ExampleMessage];
    Join3(ExampleBanner, line, ExampleMessage, '\n');
    ResolvesLastFrame(Some(script), ExampleBanner, "", [frame], [ExampleMessage], highlight, fileSize);
    ExampleMessageKept();
    assert [Reword(ExampleMessage)] + [ExampleMessage][1..] == [ExampleMessage];
  }
}
